=== FILE: README.md ===
# Binding-table pass of the UE4SS .NET plugin loader

`Shared.Load` in `UE4SSDotNetFramework/Framework/Bindings.cs` is the pass that
turns a managed plugin assembly into what the native host calls:

- the lifecycle resolver fills five `IntPtr` slots from the hooks of a
  public type named `Main` (`StartMod`, `StopMod`, `ProgramStart`,
  `UnrealInit`, `Update`, slots 0 to 4);
- the export-table builder adds, for every public static non-generic method
  with no parameter or one `ObjectReference` parameter, the ordinal hash of
  `<type full name>.<method name>` mapped to a native pointer into the static
  `userFunctions` table, with `Dictionary.Add`;
- a native pointer comes from `GetFunctionPointer`, which caches one delegate
  per `DeclaringType.FullName + "." + Name`. The delegate's type comes from
  `GetDelegateType`, which caches one synthesised delegate type per signature
  name (`GetMethodName`: the return type's full name without dots, then
  `_` and each parameter type's full name without dots).

The model is functional state passing. The static fields become the record
`Thunks.Shared`, which holds the three tables, the number of
`MakeDelegate` calls and the number of delegates `CreateDelegate` has
created so far (a refused call creates none). Reflection results
become plain descriptors (`Clr.TypeDesc`, `Clr.MethodDesc`, `Clr.TypeRef`).
The slots behind the `events` pointer become a five-element sequence. An
exception becomes the `thrown` field of `Passes.Run`. The tables and the
slots are written in place in the source, so a `Run` that carries an
exception still holds every write made before it.

Three services are runtime-provided, outside `Bindings.cs`:

- `string.GetHashCode(StringComparison.Ordinal)`;
- `Collector.GetFunctionPointer`;
- the signature check of `MethodInfo.CreateDelegate`, which decides whether
  a method can be bound to a given delegate type.

They are the function fields of `Clr.Runtime`. The hash and the pointer
extraction are arbitrary. The signature check is arbitrary except for two
rules, stated with `Clr.Delegable`. A method is delegable when its
declaring type is not an open generic type (one with unbound type
parameters, flagged `Clr.MethodDesc.ownerIsOpen`) and the runtime accepts
it at all (flagged `Clr.MethodDesc.accepted`). The flag is false, for one,
for a method marked `[UnmanagedCallersOnly]`, which `CreateDelegate`
refuses with `NotSupportedException`. A method that is not delegable
never binds. A delegable method always binds to a delegate type with
exactly its own parameter types and return type. Every operation takes
the runtime as a parameter.

Modules, in dependency order:

- `Clr`: the descriptors and the runtime services.
- `Naming`: `GetTypeName` and `GetMethodName`.
- `Thunks`: the two get-or-add caches and their invariant `Valid`.
- `Passes`: errors, slots and the pass state.
- `Lifecycle`: the hook scan.
- `Exports`: the export scan.
- `Loader`: `Load`.

Behaviour of the code that the model keeps as written:

- A hook declared with one parameter throws. A hook declared with two or
  more parameters is passed over without error, because of the
  `Length <= 1` guard (`Lifecycle.ResolveHooksThrows`).
- A duplicate export key throws: `Dictionary.Add` refuses it and the pass
  stops. The entry already present stays, and so does every entry added
  before it (`Exports.ExportAllFailsAt`, `Loader.LoadFailsAt`).
- The delegate-type cache is keyed by the signature name alone. Two
  different shapes can share a name, among them the two return types
  `A.BC` and `AB.C` of parameterless exports, or one full name defined by
  two assemblies (`Naming.DistinctShapesShareName`). The
  second one is then handed the first one's delegate type, and
  `CreateDelegate` throws for it unless the runtime accepts the mismatch
  (`Thunks.CollisionFails`). Whether a pass succeeds can therefore depend on
  what earlier passes cached.
- The filters of lines 45 and 97 do not exclude a method that is not
  delegable. This covers a method of a generic type definition, which
  `GetTypes()` returns, and a method marked `[UnmanagedCallersOnly]`. An
  exportable method of either kind reaches `CreateDelegate`, which throws.
  By then `GetDelegateType` has already cached a type for its signature
  name (`Thunks.RefusedMethodFails`, `Exports.RefusedExportThrows`).
- A pool of methods is called bindable (`Thunks.Coherent`) when all of
  them are delegable, each agrees in shape with the delegate
  type cached under its signature name, and no two of them share a
  signature name with different shapes. When the plugin's exportable methods
  form a bindable pool, the pass succeeds exactly when there is no
  misdeclared hook and no repeated export key (`Loader.LoadSucceedsIff`).
- The export key uses `type.FullName`. The delegate cache key uses
  `method.DeclaringType.FullName`. Both are kept as written.
- The hooks of `Main` are exported as well (`Loader.HookIsExported`).
- Slots written by the hook scan keep their pointers when a later step
  throws (`Loader.LoadKeepsWrittenSlot`).

## Model

| member | source | states |
|---|---|---|
| Naming.StripDots | UE4SSDotNetFramework/Framework/Bindings.cs:120 | the result has no `.` and is no longer than the input |
| Naming.StripDotsKeepsOthers | UE4SSDotNetFramework/Framework/Bindings.cs:120 | every character other than `.` is kept, with its number of occurrences |
| Naming.StripDotsDropsLeadingDot | UE4SSDotNetFramework/Framework/Bindings.cs:120 | a leading `.` is removed and the rest is stripped as before |
| Naming.StripDotsAppend | UE4SSDotNetFramework/Framework/Bindings.cs:120 | stripping distributes over concatenation, so the kept characters keep their order |
| Naming.StripDotsKeepsDotFree | UE4SSDotNetFramework/Framework/Bindings.cs:120 | a string without `.` is returned unchanged |
| Naming.StripDotsIdempotent | UE4SSDotNetFramework/Framework/Bindings.cs:120 | stripping twice equals stripping once |
| Naming.GetTypeName | UE4SSDotNetFramework/Framework/Bindings.cs:120 | the type name the signature key is built from contains no `.` |
| Naming.SignatureName | UE4SSDotNetFramework/Framework/Bindings.cs:123-131 | the key has no `.`, starts with the stripped return type name, and is exactly that name when there are no parameters |
| Naming.JoinedSnoc | UE4SSDotNetFramework/Framework/Bindings.cs:126-128 | each further parameter appends `_` and its stripped name, in declared order |
| Naming.GetMethodName | UE4SSDotNetFramework/Framework/Bindings.cs:123-131 | the string-building loop yields the signature key: return type name, then `_` and each parameter's name |
| Naming.SignatureNameInjective | UE4SSDotNetFramework/Framework/Bindings.cs:123-131 | signatures with the same stripped names get the same key, for every signature; when no stripped name contains `_`, equal keys also mean equal stripped names position by position |
| Naming.JoinedCongruent | UE4SSDotNetFramework/Framework/Bindings.cs:126-128 | parameter lists with the same stripped names give the same parameter part of the key |
| Naming.StripDotsOfQualified | UE4SSDotNetFramework/Framework/Bindings.cs:120 | `p.q` strips to `pq` for dot-free `p` and `q` |
| Naming.DistinctShapesShareName | UE4SSDotNetFramework/Framework/Bindings.cs:120-131 | for any parameter list, a return type `p.q` and a different return type `pq` get the same key, and so does one full name from two different assemblies, so the cache gives two shapes the same delegate type |
| Thunks.DelegateKey | UE4SSDotNetFramework/Framework/Bindings.cs:152 | the delegate cache key is the declaring type's full name, a `.`, and the method name |
| Thunks.BindFails | UE4SSDotNetFramework/Framework/Bindings.cs:154-163 | `CreateDelegate` is reached and throws: the method key is not cached, and the runtime refuses to bind the method to the delegate type `GetDelegateType` resolves, cached or freshly synthesised |
| Thunks.InitialValid | UE4SSDotNetFramework/Framework/Bindings.cs:12-21 | the empty tables the static initialisers create satisfy the cache invariant |
| Thunks.ExtendsTransitive | UE4SSDotNetFramework/Framework/Bindings.cs:134-166 | growing the tables twice is growing them once |
| Thunks.GetDelegateType | UE4SSDotNetFramework/Framework/Bindings.cs:134-138 | the signature key is cached afterwards and maps to the returned type; the key set grows by that key alone; on a hit the cached type is returned and nothing changes; on a miss exactly one synthesis runs, for the given signature; no entry is removed or replaced and the other tables are untouched |
| Thunks.GetDelegateTypeKeepsValid | UE4SSDotNetFramework/Framework/Bindings.cs:134-138 | a lookup keeps the cache invariant and returns a type named after the signature key |
| Thunks.AddTypeKeepsValid | UE4SSDotNetFramework/Framework/Bindings.cs:137 | caching a fresh synthesis under a new key keeps one synthesis per key |
| Thunks.SynthesisIsFresh | UE4SSDotNetFramework/Framework/Bindings.cs:137-148 | a type synthesised on a miss differs from every type cached before |
| Thunks.DescriptorReused | UE4SSDotNetFramework/Framework/Bindings.cs:134-138 | once a key is cached, any later lookup of a signature with that key returns the same type and synthesises nothing |
| Thunks.GetFunctionPointer | UE4SSDotNetFramework/Framework/Bindings.cs:151-166 | the call fails exactly when `CreateDelegate` is reached and refuses the resolved delegate type; it then leaves the delegate cache as it was but keeps the type `GetDelegateType` cached; otherwise the method key is cached afterwards and the pointer is that delegate's pointer; the key set grows by that key alone; on a hit nothing changes; on a miss exactly one delegate is created, bound to the method; the export table is untouched |
| Thunks.BindFailsCases | UE4SSDotNetFramework/Framework/Bindings.cs:134-163 | with the method key not cached: a method that is not delegable (open generic owner, or refused by the runtime) always fails; on a new signature name it fails exactly when it is not delegable, since a delegable one binds to the fresh synthesis of its own shape; on a cached name it fails exactly when the runtime refuses the cached type |
| Thunks.RefusedMethodFails | UE4SSDotNetFramework/Framework/Bindings.cs:134-163 | a method that is not delegable (open generic owner, or refused by the runtime, as an `[UnmanagedCallersOnly]` method is) whose key is not cached fails, leaves the delegate cache as it was, and leaves a type cached under its signature name, synthesised by this very call when the name was new |
| Thunks.GetFunctionPointerKeepsValid | UE4SSDotNetFramework/Framework/Bindings.cs:151-166 | a pointer lookup keeps the cache invariant |
| Thunks.AddDelegateKeepsValid | UE4SSDotNetFramework/Framework/Bindings.cs:154-163 | caching a fresh delegate of the signature's cached type under a new key keeps the invariant |
| Thunks.AddDelegateKeepsShape | UE4SSDotNetFramework/Framework/Bindings.cs:154-163 | a fresh delegate under a new key keeps one creation per key |
| Thunks.PointerReused | UE4SSDotNetFramework/Framework/Bindings.cs:151-166 | a later call for a cached key returns the pointer of the same delegate and changes nothing |
| Thunks.CollisionFails | UE4SSDotNetFramework/Framework/Bindings.cs:134-163 | once a method has been bound under a new signature name, a second method with the same name and a different shape that the runtime will not bind to the first one's type makes `GetFunctionPointer` fail and change nothing |
| Thunks.CoherentBinds | UE4SSDotNetFramework/Framework/Bindings.cs:134-163 | for a method of a bindable pool (every method delegable, every cached type agrees in shape, no two shapes share a signature name), `GetFunctionPointer` does not fail and the pool stays bindable |
| Thunks.DescriptorSharing | UE4SSDotNetFramework/Framework/Bindings.cs:134-163 | two cached delegates have the same delegate type exactly when their targets' signature keys are equal |
| Thunks.CallsMatchNewKeys | UE4SSDotNetFramework/Framework/Bindings.cs:134-163 | between two valid states the number of syntheses equals the number of new signature names and the number of delegates created equals the number of new method keys: no name is synthesised twice and no key gets two delegates, while a refused `CreateDelegate` creates nothing |
| Passes.NoDuplicatesAppend | UE4SSDotNetFramework/Framework/Bindings.cs:106 | inserting `a + b` meets no present key exactly when inserting `a` does not and inserting `b` after `a` does not |
| Exports.ExportName | UE4SSDotNetFramework/Framework/Bindings.cs:104 | the string whose ordinal hash is the export key: the type's full name, a `.`, and the method name |
| Exports.Exportable | UE4SSDotNetFramework/Framework/Bindings.cs:97-102 | a public static non-generic method with no parameter, or with one parameter of type `ObjectReference`, is exported; any other is skipped |
| Exports.Add | UE4SSDotNetFramework/Framework/Bindings.cs:106 | `Dictionary.Add` fails exactly when the key is present; otherwise it adds that one entry, and the delegate caches and the call counters stay as they were |
| Exports.ExportStep | UE4SSDotNetFramework/Framework/Bindings.cs:96-107 | one method's export step leaves the slots alone and never removes or replaces a table entry |
| Exports.ExportStepSpec | UE4SSDotNetFramework/Framework/Bindings.cs:96-107 | a method that is not exportable changes nothing; for an exportable one a `CreateDelegate` failure throws, leaving only the delegate type `GetDelegateType` resolved behind; otherwise the step throws exactly when its key is taken, keeping the table, and else adds its key with the pointer of its cached delegate |
| Exports.RefusedExportThrows | UE4SSDotNetFramework/Framework/Bindings.cs:97-106 | an exportable method that is not delegable, met before its key is cached, throws a bind failure before `Add`, with the export table and the delegate cache unchanged and a type cached under its signature name |
| Exports.ExportStepKeys | UE4SSDotNetFramework/Framework/Bindings.cs:96-107 | seen from the table's keys: a step that does not throw adds its key, which was new; one that throws leaves the keys alone; a new key can only meet a `CreateDelegate` failure; a duplicate error names a taken key; the hook error never comes from here |
| Exports.ExportAll | UE4SSDotNetFramework/Framework/Bindings.cs:96-108 | the export scan leaves the slots alone and never removes or replaces a table entry |
| Exports.ExportStepKeepsValid | UE4SSDotNetFramework/Framework/Bindings.cs:96-107 | one export step keeps the cache invariant, whether or not `Add` throws |
| Exports.ExportAllKeepsValid | UE4SSDotNetFramework/Framework/Bindings.cs:96-108 | the export scan keeps the cache invariant |
| Exports.ExportAllOutcome | UE4SSDotNetFramework/Framework/Bindings.cs:96-108 | a scan that does not throw added keys that were new and pairwise distinct, and exactly those; when they are, the scan throws no `DuplicateExport` |
| Exports.ExportAllNoHookError | UE4SSDotNetFramework/Framework/Bindings.cs:96-108 | the export scan only throws a duplicate-key error or a `CreateDelegate` failure |
| Exports.ExportAllCoherent | UE4SSDotNetFramework/Framework/Bindings.cs:96-108 | in a bindable pool holding every exportable method, the scan meets no `CreateDelegate` failure and keeps the pool bindable |
| Exports.ExportAllSucceedsIff | UE4SSDotNetFramework/Framework/Bindings.cs:96-108 | a scan that does not throw added keys that were new and pairwise distinct, and exactly those; with new distinct keys only a `CreateDelegate` failure can throw; when the methods form a bindable pool, the scan succeeds exactly when its keys are new and pairwise distinct |
| Exports.ExportAllFailsAt | UE4SSDotNetFramework/Framework/Bindings.cs:96-108 | a failing scan stopped at some key: every key before it went in and stays, the table holds exactly those keys beyond the old ones, and a duplicate error names that key, the first one already present |
| Exports.ExportAllPointers | UE4SSDotNetFramework/Framework/Bindings.cs:104-106 | after a successful scan each exportable method's key maps to the pointer of that method's cached delegate |
| Lifecycle.IsMainType | UE4SSDotNetFramework/Framework/Bindings.cs:43 | only a public type named `Main` is scanned for hooks |
| Lifecycle.WellDeclaredHook | UE4SSDotNetFramework/Framework/Bindings.cs:45-51 | a public static non-generic method named after a hook and taking no parameter fills that hook's slot |
| Lifecycle.MisdeclaredHook | UE4SSDotNetFramework/Framework/Bindings.cs:45-53 | a public static non-generic method named after a hook and taking exactly one parameter makes the scan throw |
| Lifecycle.HookSlot | UE4SSDotNetFramework/Framework/Bindings.cs:49-90 | a name has a slot exactly when it is one of the five hooks, and the slot is that hook's position |
| Lifecycle.HookStep | UE4SSDotNetFramework/Framework/Bindings.cs:44-91 | one method's hook step never removes or replaces a cache entry and leaves the export table alone |
| Lifecycle.ResolveHooks | UE4SSDotNetFramework/Framework/Bindings.cs:43-94 | the hook scan never removes or replaces a cache entry and leaves the export table alone |
| Lifecycle.HookStepKeepsValid | UE4SSDotNetFramework/Framework/Bindings.cs:44-91 | one hook step keeps the cache invariant |
| Lifecycle.HookStepThrows | UE4SSDotNetFramework/Framework/Bindings.cs:44-91 | a hook with one parameter throws, naming itself, and changes nothing; a hook without parameters throws exactly when `CreateDelegate` fails, and then leaves only the delegate type `GetDelegateType` resolved behind; any other method changes nothing |
| Lifecycle.ResolveHooksKeepsValid | UE4SSDotNetFramework/Framework/Bindings.cs:43-94 | the hook scan keeps the cache invariant |
| Lifecycle.ResolveHooksThrows | UE4SSDotNetFramework/Framework/Bindings.cs:45-90 | a scan that does not throw met no hook with one parameter; a scan that throws stopped at a method with no such hook before it, which is either a hook with one parameter, named by the error, or a hook without parameters that `CreateDelegate` refused; two or more parameters are passed over |
| Lifecycle.ResolveHooksCoherent | UE4SSDotNetFramework/Framework/Bindings.cs:43-94 | in a bindable pool holding every hook the scan binds, the scan only throws for a hook with one parameter and keeps the pool bindable |
| Lifecycle.ResolveHooksKeepsSlot | UE4SSDotNetFramework/Framework/Bindings.cs:43-94 | a slot whose hook no method declares keeps the caller's value, even when the scan throws |
| Lifecycle.HookStepWrites | UE4SSDotNetFramework/Framework/Bindings.cs:49-55 | a well-declared hook writes its slot with the pointer of the delegate cached for it |
| Lifecycle.ResolveHooksWritesSlot | UE4SSDotNetFramework/Framework/Bindings.cs:43-94 | after a scan that did not throw, a declared hook's slot holds the pointer of the delegate cached for `<owner>.<hook>` |
| Loader.TypeStep | UE4SSDotNetFramework/Framework/Bindings.cs:40-109 | one type's pass never removes or replaces a table entry |
| Loader.LoadTypes | UE4SSDotNetFramework/Framework/Bindings.cs:38-110 | the loop over the types never removes or replaces a table entry |
| Loader.Load | UE4SSDotNetFramework/Framework/Bindings.cs:35-117 | a load, successful or not, keeps every entry of the static tables that was there before |
| Loader.TypeStepOutcome | UE4SSDotNetFramework/Framework/Bindings.cs:40-109 | a type's pass that does not throw had no misdeclared hook and new, distinct export keys, and added exactly those; a hook error means a misdeclared hook, a duplicate error a repeated key, and with neither only a `CreateDelegate` failure can throw |
| Loader.TypeStepCoherent | UE4SSDotNetFramework/Framework/Bindings.cs:40-109 | in a bindable pool holding the type's exportable methods, the type's pass meets no `CreateDelegate` failure and keeps the pool bindable |
| Loader.TypeStepSucceedsIff | UE4SSDotNetFramework/Framework/Bindings.cs:40-109 | a type's pass that does not throw had no misdeclared hook and new, distinct export keys, and added exactly those keys; when its exportable methods form a bindable pool, it succeeds exactly under those two conditions |
| Loader.LoadTypesOutcome | UE4SSDotNetFramework/Framework/Bindings.cs:38-110 | a loop that does not throw met no misdeclared hook and new, distinct export keys, and added exactly those; a hook error means a misdeclared hook, a duplicate error a repeated key, and with neither only a `CreateDelegate` failure can throw |
| Loader.LoadTypesCoherent | UE4SSDotNetFramework/Framework/Bindings.cs:38-110 | in a bindable pool holding every type's exportable methods, the loop meets no `CreateDelegate` failure and keeps the pool bindable |
| Loader.LoadTypesSucceedsIff | UE4SSDotNetFramework/Framework/Bindings.cs:38-110 | a loop that does not throw met no misdeclared hook and new, distinct export keys, and added exactly those; when the exportable methods form a bindable pool, it succeeds exactly under those two conditions |
| Loader.LoadSucceedsIff | UE4SSDotNetFramework/Framework/Bindings.cs:35-117 | a `Load` that does not throw had no misdeclared hook and new, distinct export keys, and the returned table holds the old keys and the plugin's; a hook error means a misdeclared hook and a duplicate error a repeated key; when the plugin's exportable methods form a bindable pool, `Load` succeeds exactly under those two conditions |
| Loader.TypeStepFailsAt | UE4SSDotNetFramework/Framework/Bindings.cs:40-109 | a failing type's pass stopped at some export key: every key before it went in and stays, and a duplicate error names that key, the first one already present |
| Loader.LoadTypesFailsAt | UE4SSDotNetFramework/Framework/Bindings.cs:38-110 | a failing loop stopped at some export key of the plugin: every key before it went in and stays, nothing is rolled back, and a duplicate error names that key, the first one already present |
| Loader.LoadFailsAt | UE4SSDotNetFramework/Framework/Bindings.cs:35-117 | a failing `Load` leaves the static table holding the old keys and every plugin key before the one it stopped at; a duplicate error names the first key already present |
| Loader.TypeStepKeepsValid | UE4SSDotNetFramework/Framework/Bindings.cs:40-109 | one type's pass keeps the cache invariant |
| Loader.LoadTypesKeepsValid | UE4SSDotNetFramework/Framework/Bindings.cs:38-110 | the loop over the types keeps the cache invariant |
| Loader.LoadKeepsValid | UE4SSDotNetFramework/Framework/Bindings.cs:35-117 | every load, successful or not, leaves at most one synthesis per signature key and one delegate per method key |
| Loader.LoadTypesKeepsSlot | UE4SSDotNetFramework/Framework/Bindings.cs:38-110 | a slot that no `Main` type declares a hook for keeps the caller's value |
| Loader.LoadKeepsSlot | UE4SSDotNetFramework/Framework/Bindings.cs:35-117 | a slot whose hook is absent from the plugin keeps the caller's value, whether or not the load throws |
| Loader.LoadTypesKeepsWrittenSlot | UE4SSDotNetFramework/Framework/Bindings.cs:38-110 | a slot the `Main` type's hook scan wrote keeps that pointer to the end of the loop, even when the export scan or a later type throws, as long as no later type declares the hook again; the delegate it points into stays cached |
| Loader.LoadTypesAppend | UE4SSDotNetFramework/Framework/Bindings.cs:38-110 | the loop over two lists of types is the loop over the first, continued over the second from where it left off unless it threw |
| Loader.LoadKeepsWrittenSlot | UE4SSDotNetFramework/Framework/Bindings.cs:35-117 | a slot written by the hook scan of a `Main` type at any position keeps that pointer to the end of `Load`, even when its export scan or a later type throws, as long as no later type declares the hook again; the delegate it points into stays cached |
| Loader.ReloadFails | UE4SSDotNetFramework/Framework/Bindings.cs:12 | the export table is static, so loading again a plugin that exports anything throws |
| Loader.HookIsExported | UE4SSDotNetFramework/Framework/Bindings.cs:49-106 | a hook of `Main` is also exported under its own name, and its slot and its export entry hold the same pointer |

## Left out

- `MakeDelegate`'s Reflection.Emit work (lines 15-33 and 141-148): the dynamic module, the type builder, the constructor and `Invoke` definitions. A synthesis is a fresh descriptor numbered by its call.
- `MethodInfo.CreateDelegate`'s binding rules (variance, by-reference and pointer parameters): the runtime's `binds` is abstract beyond two rules. A method that is not delegable never binds. A delegable method binds to a delegate type of exactly its own shape. Which methods the runtime refuses outright (`[UnmanagedCallersOnly]` among them) is the abstract flag `Clr.MethodDesc.accepted`, not derived from attributes. The `BindFailure` error carries the delegate key, not the runtime's message.
- Exports.ExportAllSucceedsIff: the "succeeds exactly when the keys are new and distinct" direction is stated only when the methods form a bindable pool (`Thunks.Coherent`: every method delegable, so no open generic owner and no method the runtime refuses outright such as an `[UnmanagedCallersOnly]` one, and no signature-name collision between shapes among the methods and the cache), because otherwise `CreateDelegate` can fail whatever the keys; the other facts hold for every input.
- Loader.TypeStepSucceedsIff: the "exactly when" direction carries the same bindable-pool premise, for the same reason.
- Loader.LoadTypesSucceedsIff: the "exactly when" direction carries the same bindable-pool premise, for the same reason.
- Loader.LoadSucceedsIff: the "exactly when" direction carries the same bindable-pool premise over the plugin's exportable methods (`Loader.PluginPool`), for the same reason.
- Exceptions from reflection itself: the model takes `GetTypes()` (line 38; `ReflectionTypeLoadException`), `GetMethods()` (line 41) and `GetParameters()` (lines 46, 98, 155) to return normally, as plain lists in `Clr.Assembly`, `Clr.TypeDesc` and `Clr.MethodDesc`.
- A `null` `FullName`, which reflection returns for generic type parameters. `TypeRef.fullName` is always a string, and the `NullReferenceException` of `GetTypeName` is not modelled.
- `string.GetHashCode(StringComparison.Ordinal)` and `Collector.GetFunctionPointer`: runtime-provided, outside `Bindings.cs`, and arbitrary functions in `Clr.Runtime`, so no property depends on a particular hash or pointer.
- `GC.Collect` and `GC.WaitForPendingFinalizers` (lines 113-114): no effect on the tables or the slots.
- The `DllImport` declarations of `Debug` and `Object` (lines 169-236): foreign stubs with no logic.
- The parameter-type copy loop of `GetFunctionPointer` (lines 158-160): it copies each `ParameterType` in order, so the model passes the method's parameter list directly.
- The `unchecked` block (line 37): no arithmetic in the pass can overflow, so the model has none to wrap.
- The `HookTakesArguments` error carries the hook's name, not the message text `" should not have arguments"` appended to it.
- That `Loader.HookIsExported` needs every static method a type reports to be declared by that type is no restriction in practice: `Type.GetMethods()` does not return static methods of base types, so the requirement holds of real reflection results.
- Concurrency: the pass and the caches are single-threaded in the source, and the model is sequential.

=== FILE: clr.dfy ===
/**
 The slice of the .NET runtime that the binding pass looks at, reduced to plain
 values: reflection results become descriptors, and the runtime-provided
 services outside `Bindings.cs` (the ordinal string hash, the native pointer
 extraction of a delegate and the signature check of `CreateDelegate`) become
 fields of a `Runtime` record that every operation receives as a parameter.
 */
module Clr {

  /** `int`, the result type of `string.GetHashCode`. */
  newtype int32 = x: int | -0x8000_0000 <= x < 0x8000_0000

  /** `IntPtr` on a 64-bit host. */
  newtype IntPtr = x: int | -0x8000_0000_0000_0000 <= x < 0x8000_0000_0000_0000

  datatype Option<+T> = None | Some(value: T)

  /** A `System.Type` used as a parameter or return type. `assembly` stands
      for the identity of the loaded assembly that defines the type, not for
      its name, so two types are the same type exactly when both fields
      agree. */
  datatype TypeRef = TypeRef(fullName: string, assembly: string)

  /** A `MethodInfo` as returned by `Type.GetMethods()`; `declaringType` is
      `DeclaringType.FullName`, and `ownerIsOpen` is
      `DeclaringType.ContainsGenericParameters`: the method belongs to a
      generic type definition whose type parameters are still unbound.
      `accepted` is an attribute-level fact the filters of `Bindings.cs` do
      not look at: false when `CreateDelegate` refuses the method whatever
      the delegate type, as it does with `NotSupportedException` for a
      method marked `[UnmanagedCallersOnly]`. */
  datatype MethodDesc = MethodDesc(
    declaringType: string,
    ownerIsOpen: bool,
    accepted: bool,
    name: string,
    isPublic: bool,
    isStatic: bool,
    isGeneric: bool,
    parameters: seq<TypeRef>,
    returnType: TypeRef)

  /** A `System.Type` of the plugin assembly: short name, full name,
      visibility and its public methods in reflection order. */
  datatype TypeDesc = TypeDesc(name: string, fullName: string, isPublic: bool, methods: seq<MethodDesc>)

  /** The plugin assembly: `GetTypes()` in reflection order. */
  datatype Assembly = Assembly(types: seq<TypeDesc>)

  /** A delegate type synthesised by `MakeDelegate`. `serial` numbers the
      synthesis calls, so two calls never yield the same descriptor. */
  datatype DelegateType = DelegateType(serial: nat, name: string, parameters: seq<TypeRef>, returnType: TypeRef)

  /** A delegate built by `MethodInfo.CreateDelegate`, bound to `target`.
      `serial` numbers the delegates created; a refused call gets none. */
  datatype Delegate = Delegate(serial: nat, target: MethodDesc, delegateType: DelegateType)

  /** The runtime-provided services the pass calls, outside `Bindings.cs`:
      `string.GetHashCode(StringComparison.Ordinal)`,
      `Collector.GetFunctionPointer`, and the compatibility check of
      `MethodInfo.CreateDelegate(Type)`, which throws `ArgumentException` when
      `binds` is false. The hash and the pointer are arbitrary functions. */
  datatype RuntimeServices = RuntimeServices(
    hash: string -> int32,
    pointerOf: Delegate -> IntPtr,
    binds: (MethodDesc, DelegateType) -> bool)

  /** `m.CreateDelegate(d)` returns instead of throwing. */
  predicate Binds(rt: RuntimeServices, m: MethodDesc, d: DelegateType)
  {
    rt.binds(m, d)
  }

  /** A delegate type with exactly the method's parameter and return types. */
  predicate SameShape(m: MethodDesc, d: DelegateType)
  {
    d.parameters == m.parameters && d.returnType == m.returnType
  }

  /** `CreateDelegate` can bind `m` to some delegate type: the method is
      accepted and does not belong to an open generic type. */
  predicate Delegable(m: MethodDesc)
  {
    m.accepted && !m.ownerIsOpen
  }

  /** The runtime binds no method that is not `Delegable`, and binds every
      `Delegable` method to a delegate type of exactly its own shape;
      whether it binds across a shape difference (delegate variance over
      reference types) is left to the runtime. */
  type Runtime = rt: RuntimeServices
    | && (forall m, d :: Binds(rt, m, d) ==> Delegable(m))
      && (forall m, d :: SameShape(m, d) && Delegable(m) ==> Binds(rt, m, d))
    witness RuntimeServices(_ => 0, _ => 0, (m: MethodDesc, d: DelegateType) => Delegable(m))

  /** `typeof(ObjectReference)`, the one parameter type a one-argument export may take. */
  const ObjectReference: TypeRef := TypeRef("UE4SSDotNetFramework.Framework.ObjectReference", "UE4SSDotNetFramework")

  /** The filter both scans of `Load` apply first: public, static, not generic. */
  predicate Callable(m: MethodDesc)
  {
    m.isPublic && m.isStatic && !m.isGeneric
  }
}

=== FILE: exports.dfy ===
/**
 The export-table builder: every public static non-generic method of every
 type that takes no parameter, or exactly one `ObjectReference`, is added to
 `userFunctions` under the ordinal hash of `<type full name>.<method name>`.
 Insertion is `Dictionary.Add`: a key already present throws and the entry
 stays as it was.
 */
module Exports {
  import opened Clr
  import opened Naming
  import opened Thunks
  import opened Passes

  /** `type.FullName + "." + method.Name`, the string that is hashed. */
  function ExportName(typeFullName: string, m: MethodDesc): string
  {
    typeFullName + "." + m.name
  }

  /** The methods that become exports. */
  predicate Exportable(m: MethodDesc)
  {
    && Callable(m)
    && (|m.parameters| == 0 || (|m.parameters| == 1 && m.parameters[0] == ObjectReference))
  }

  /** `Dictionary.Add` on the export table: throws (here `None`) when the key
      is present, otherwise adds the entry and changes nothing else. */
  function Add(s: Shared, key: int32, pointer: IntPtr): (r: Option<Shared>)
    ensures r.None? <==> key in s.userFunctions
    ensures r.Some? ==> && r.value.userFunctions == s.userFunctions[key := pointer]
                        && r.value.userFunctions.Keys == s.userFunctions.Keys + {key}
                        && Extends(s, r.value)
                        && r.value.delegatesCache == s.delegatesCache
                        && r.value.delegateTypesCache == s.delegateTypesCache
                        && r.value.typesMade == s.typesMade
                        && r.value.delegatesMade == s.delegatesMade
  {
    if key in s.userFunctions then None
    else Some(s.(userFunctions := s.userFunctions[key := pointer]))
  }

  /** One iteration of the export loop over a type's methods. The key and
      the pointer are computed before `Add` runs, so the caches keep the new
      delegate even when `Add` throws; when `CreateDelegate` throws, `Add` is
      not reached. */
  function ExportStep(rt: Runtime, shared: Shared, events: Slots, typeFullName: string, m: MethodDesc): (r: Run)
    ensures r.events == events
    ensures Extends(shared, r.shared)
  {
    if Callable(m) && |m.parameters| <= 1 then
      if |m.parameters| == 1 && m.parameters[0] != ObjectReference then
        Run(shared, events, None)
      else
        var key := rt.hash(ExportName(typeFullName, m));
        var p := GetFunctionPointer(rt, shared, m);
        match p.pointer
        case None => Run(p.shared, events, Some(BindFailure(DelegateKey(m))))
        case Some(pointer) =>
          match Add(p.shared, key, pointer)
          case None => Run(p.shared, events, Some(DuplicateExport(key)))
          case Some(added) => Run(added, events, None)
    else
      Run(shared, events, None)
  }

  /** A method that is not exportable is skipped without error and without
      any change. For an exportable one, a `CreateDelegate` failure throws,
      leaving the delegate type `GetDelegateType` resolved cached and nothing
      else changed; otherwise the step throws exactly when its key is
      taken, keeping the table, and else adds its key with the pointer of its
      cached delegate. */
  lemma ExportStepSpec(rt: Runtime, shared: Shared, events: Slots, typeFullName: string, m: MethodDesc)
    ensures var r := ExportStep(rt, shared, events, typeFullName, m);
            && (!Exportable(m) ==> r == Run(shared, events, None))
            && (Exportable(m) && BindFails(rt, shared, m) ==>
                  r == Run(GetDelegateType(shared, m.parameters, m.returnType).shared, events,
                           Some(BindFailure(DelegateKey(m)))))
            && (Exportable(m) && !BindFails(rt, shared, m) ==>
                  var key := rt.hash(ExportName(typeFullName, m));
                  && DelegateKey(m) in r.shared.delegatesCache
                  && (r.thrown.Some? <==> key in shared.userFunctions)
                  && (r.thrown.Some? ==> r.thrown == Some(DuplicateExport(key)) && r.shared.userFunctions == shared.userFunctions)
                  && (r.thrown.None? ==>
                        r.shared.userFunctions
                        == shared.userFunctions[key := rt.pointerOf(r.shared.delegatesCache[DelegateKey(m)])]))
  {
  }

  /** An exportable method that is not `Delegable` (one of an open generic
      type, or one the runtime refuses outright), met before its key is
      cached, makes the export step throw before `Add` is reached, while the
      delegate type resolved for its signature stays cached. */
  lemma RefusedExportThrows(rt: Runtime, shared: Shared, events: Slots, typeFullName: string, m: MethodDesc)
    requires Exportable(m) && !Delegable(m) && DelegateKey(m) !in shared.delegatesCache
    ensures var r := ExportStep(rt, shared, events, typeFullName, m);
            && r.thrown == Some(BindFailure(DelegateKey(m)))
            && r.shared.userFunctions == shared.userFunctions
            && r.shared.delegatesCache == shared.delegatesCache
            && SignatureName(m.parameters, m.returnType) in r.shared.delegateTypesCache
  {
    RefusedMethodFails(rt, shared, m);
  }

  /** The export loop over one type's methods: stops at the first exception,
      keeping every entry added before it. */
  function ExportAll(rt: Runtime, shared: Shared, events: Slots, typeFullName: string, methods: seq<MethodDesc>): (r: Run)
    ensures r.events == events
    ensures Extends(shared, r.shared)
    decreases |methods|
  {
    if methods == [] then Run(shared, events, None)
    else
      var step := ExportStep(rt, shared, events, typeFullName, methods[0]);
      if step.thrown.Some? then step
      else
        var rest := ExportAll(rt, step.shared, events, typeFullName, methods[1..]);
        ExtendsTransitive(shared, step.shared, rest.shared);
        rest
  }

  lemma ValidIgnoresExports(s: Shared, t: Shared)
    requires t == s.(userFunctions := t.userFunctions)
    ensures Valid(s) ==> Valid(t)
  {
  }

  lemma ExportStepKeepsValid(rt: Runtime, shared: Shared, events: Slots, typeFullName: string, m: MethodDesc)
    requires Valid(shared)
    ensures Valid(ExportStep(rt, shared, events, typeFullName, m).shared)
  {
    var r := ExportStep(rt, shared, events, typeFullName, m);
    if Exportable(m) {
      var p := GetFunctionPointer(rt, shared, m);
      GetFunctionPointerKeepsValid(rt, shared, m);
      var key := rt.hash(ExportName(typeFullName, m));
      if p.pointer.None? || key in p.shared.userFunctions {
        assert r.shared == p.shared;
      } else {
        var added := p.shared.(userFunctions := p.shared.userFunctions[key := p.pointer.value]);
        assert Add(p.shared, key, p.pointer.value) == Some(added);
        assert r.shared == added;
        ValidIgnoresExports(p.shared, added);
      }
    } else {
      assert r.shared == shared;
    }
  }

  /** The export loop keeps the cache invariant. */
  lemma {:induction false} ExportAllKeepsValid(rt: Runtime, shared: Shared, events: Slots, typeFullName: string, methods: seq<MethodDesc>)
    requires Valid(shared)
    ensures Valid(ExportAll(rt, shared, events, typeFullName, methods).shared)
    decreases |methods|
  {
    if methods != [] {
      var step := ExportStep(rt, shared, events, typeFullName, methods[0]);
      ExportStepKeepsValid(rt, shared, events, typeFullName, methods[0]);
      if step.thrown.None? {
        ExportAllKeepsValid(rt, step.shared, events, typeFullName, methods[1..]);
        assert ExportAll(rt, shared, events, typeFullName, methods) == ExportAll(rt, step.shared, events, typeFullName, methods[1..]);
      }
    }
  }

  /** The keys the export loop tries to add, in order. */
  function ExportKeys(rt: Runtime, typeFullName: string, methods: seq<MethodDesc>): seq<int32>
    decreases |methods|
  {
    if methods == [] then []
    else
      (if Exportable(methods[0]) then [rt.hash(ExportName(typeFullName, methods[0]))] else [])
      + ExportKeys(rt, typeFullName, methods[1..])
  }

  lemma ElemsCons(k: int32, keys: seq<int32>)
    ensures Elems([k] + keys) == {k} + Elems(keys)
  {
  }

  /** One step seen from the export table's keys alone. */
  lemma ExportStepKeys(rt: Runtime, shared: Shared, events: Slots, typeFullName: string, m: MethodDesc)
    ensures var r := ExportStep(rt, shared, events, typeFullName, m);
            var taken := shared.userFunctions.Keys;
            var key := rt.hash(ExportName(typeFullName, m));
            && (!Exportable(m) ==> r == Run(shared, events, None))
            && (r.thrown.Some? ==> !r.thrown.value.HookTakesArguments?)
            && (Exportable(m) ==> r.shared.userFunctions.Keys == if r.thrown.None? then taken + {key} else taken)
            && (Exportable(m) && r.thrown.None? ==> key !in taken)
            && (Exportable(m) && key !in taken ==> r.thrown.None? || r.thrown.value.BindFailure?)
            && (Exportable(m) && r.thrown.Some? && r.thrown.value.DuplicateExport? ==>
                  key in taken && r.thrown == Some(DuplicateExport(key)))
  {
    ExportStepSpec(rt, shared, events, typeFullName, m);
  }

  /** The export loop over a non-empty list, one step and then the rest. */
  lemma ExportAllCons(rt: Runtime, shared: Shared, events: Slots, typeFullName: string, methods: seq<MethodDesc>)
    requires methods != []
    ensures var step := ExportStep(rt, shared, events, typeFullName, methods[0]);
            && (step.thrown.Some? ==> ExportAll(rt, shared, events, typeFullName, methods) == step)
            && (step.thrown.None? ==>
                  ExportAll(rt, shared, events, typeFullName, methods)
                  == ExportAll(rt, step.shared, events, typeFullName, methods[1..]))
            && ExportKeys(rt, typeFullName, methods)
               == (if Exportable(methods[0]) then [rt.hash(ExportName(typeFullName, methods[0]))] else [])
                  + ExportKeys(rt, typeFullName, methods[1..])
  {
  }

  /** Every exportable method of `methods` belongs to `pool`. */
  ghost predicate ExportablesIn(methods: seq<MethodDesc>, pool: set<MethodDesc>)
  {
    forall k :: 0 <= k < |methods| && Exportable(methods[k]) ==> methods[k] in pool
  }

  /** A run of the export loop that does not throw added keys that were new
      and pairwise distinct, and exactly those; when they are, the loop does
      not throw `DuplicateExport`. */
  lemma {:induction false} ExportAllOutcome(rt: Runtime, shared: Shared, events: Slots, typeFullName: string, methods: seq<MethodDesc>)
    ensures var r := ExportAll(rt, shared, events, typeFullName, methods);
            var keys := ExportKeys(rt, typeFullName, methods);
            && (r.thrown.None? ==> NoDuplicates(shared.userFunctions.Keys, keys))
            && (r.thrown.None? ==> r.shared.userFunctions.Keys == shared.userFunctions.Keys + Elems(keys))
            && (NoDuplicates(shared.userFunctions.Keys, keys) ==> r.thrown.None? || r.thrown.value.BindFailure?)
    decreases |methods|
  {
    var taken := shared.userFunctions.Keys;
    if methods == [] {
      assert Elems([]) == {};
    } else {
      var m := methods[0];
      var step := ExportStep(rt, shared, events, typeFullName, m);
      var tailKeys := ExportKeys(rt, typeFullName, methods[1..]);
      ExportStepKeys(rt, shared, events, typeFullName, m);
      ExportAllCons(rt, shared, events, typeFullName, methods);
      if step.thrown.None? {
        ExportAllOutcome(rt, step.shared, events, typeFullName, methods[1..]);
      }
      if Exportable(m) {
        var key := rt.hash(ExportName(typeFullName, m));
        assert ExportKeys(rt, typeFullName, methods) == [key] + tailKeys;
        NoDuplicatesCons(taken, key, tailKeys);
        ElemsCons(key, tailKeys);
      } else {
        assert ExportKeys(rt, typeFullName, methods) == tailKeys;
      }
    }
  }

  /** The export loop never throws the hook error. */
  lemma {:induction false} ExportAllNoHookError(rt: Runtime, shared: Shared, events: Slots, typeFullName: string, methods: seq<MethodDesc>)
    ensures var r := ExportAll(rt, shared, events, typeFullName, methods);
            r.thrown.Some? ==> r.thrown.value.DuplicateExport? || r.thrown.value.BindFailure?
    decreases |methods|
  {
    if methods != [] {
      var step := ExportStep(rt, shared, events, typeFullName, methods[0]);
      ExportStepKeys(rt, shared, events, typeFullName, methods[0]);
      ExportAllCons(rt, shared, events, typeFullName, methods);
      if step.thrown.None? {
        ExportAllNoHookError(rt, step.shared, events, typeFullName, methods[1..]);
      }
    }
  }

  /** In a coherent pool that holds every exportable method, the export loop
      never meets a `CreateDelegate` failure and keeps the pool coherent. */
  lemma {:induction false} ExportAllCoherent(rt: Runtime, shared: Shared, events: Slots, typeFullName: string, methods: seq<MethodDesc>, pool: set<MethodDesc>)
    requires Coherent(shared.delegateTypesCache, pool) && ExportablesIn(methods, pool)
    ensures var r := ExportAll(rt, shared, events, typeFullName, methods);
            && (r.thrown.None? || !r.thrown.value.BindFailure?)
            && Coherent(r.shared.delegateTypesCache, pool)
    decreases |methods|
  {
    if methods != [] {
      var m := methods[0];
      var step := ExportStep(rt, shared, events, typeFullName, m);
      ExportStepSpec(rt, shared, events, typeFullName, m);
      if Exportable(m) {
        CoherentBinds(rt, shared, m, pool);
        var p := GetFunctionPointer(rt, shared, m);
        assert step.shared.delegateTypesCache == p.shared.delegateTypesCache;
      }
      if step.thrown.None? {
        var tail := methods[1..];
        forall k | 0 <= k < |tail| && Exportable(tail[k]) ensures tail[k] in pool {
          assert tail[k] == methods[k + 1];
        }
        ExportAllCoherent(rt, step.shared, events, typeFullName, tail, pool);
        assert ExportAll(rt, shared, events, typeFullName, methods) == ExportAll(rt, step.shared, events, typeFullName, tail);
      }
    }
  }

  /** A run of the export loop that does not throw added keys that were new
      and pairwise distinct, and exactly those. When no signature name is
      shared between shapes among the methods and the cache, the loop
      succeeds exactly when its keys are new and pairwise distinct. */
  lemma ExportAllSucceedsIff(rt: Runtime, shared: Shared, events: Slots, typeFullName: string, methods: seq<MethodDesc>, pool: set<MethodDesc>)
    ensures var r := ExportAll(rt, shared, events, typeFullName, methods);
            var keys := ExportKeys(rt, typeFullName, methods);
            && (r.thrown.None? ==> NoDuplicates(shared.userFunctions.Keys, keys))
            && (r.thrown.None? ==> r.shared.userFunctions.Keys == shared.userFunctions.Keys + Elems(keys))
            && (NoDuplicates(shared.userFunctions.Keys, keys) ==> r.thrown.None? || r.thrown.value.BindFailure?)
            && (Coherent(shared.delegateTypesCache, pool) && ExportablesIn(methods, pool) ==>
                  (r.thrown.None? <==> NoDuplicates(shared.userFunctions.Keys, keys)))
  {
    ExportAllOutcome(rt, shared, events, typeFullName, methods);
    if Coherent(shared.delegateTypesCache, pool) && ExportablesIn(methods, pool) {
      ExportAllCoherent(rt, shared, events, typeFullName, methods, pool);
    }
  }

  /** When the export loop throws, it stopped at the `n`-th key it tries to
      add: every key before that one went in and stays added, nothing is
      rolled back, and a `DuplicateExport` names that key, the first one
      already present. */
  lemma {:induction false} ExportAllFailsAt(rt: Runtime, shared: Shared, events: Slots, typeFullName: string, methods: seq<MethodDesc>)
      returns (n: nat)
    requires ExportAll(rt, shared, events, typeFullName, methods).thrown.Some?
    ensures var r := ExportAll(rt, shared, events, typeFullName, methods);
            var keys := ExportKeys(rt, typeFullName, methods);
            && n < |keys|
            && AddedFirst(shared.userFunctions.Keys, keys, n)
            && r.shared.userFunctions.Keys == shared.userFunctions.Keys + Elems(keys[..n])
            && (r.thrown.value.DuplicateExport? ==>
                  ClashAt(shared.userFunctions.Keys, keys, n) && r.thrown == Some(DuplicateExport(keys[n])))
    decreases |methods|
  {
    var taken := shared.userFunctions.Keys;
    var m := methods[0];
    var step := ExportStep(rt, shared, events, typeFullName, m);
    var tailKeys := ExportKeys(rt, typeFullName, methods[1..]);
    ExportStepKeys(rt, shared, events, typeFullName, m);
    ExportAllCons(rt, shared, events, typeFullName, methods);
    if step.thrown.Some? {
      var key := rt.hash(ExportName(typeFullName, m));
      assert ExportKeys(rt, typeFullName, methods) == [key] + tailKeys;
      n := 0;
      StopsAtFront(taken, key, tailKeys);
    } else {
      var n' := ExportAllFailsAt(rt, step.shared, events, typeFullName, methods[1..]);
      if Exportable(m) {
        var key := rt.hash(ExportName(typeFullName, m));
        assert ExportKeys(rt, typeFullName, methods) == [key] + tailKeys;
        n := n' + 1;
        AddedFirstCons(taken, key, tailKeys, n');
      } else {
        assert ExportKeys(rt, typeFullName, methods) == tailKeys;
        n := n';
      }
    }
  }

  lemma StopsAtFront(taken: set<int32>, k: int32, keys: seq<int32>)
    ensures AddedFirst(taken, [k] + keys, 0) && Elems(([k] + keys)[..0]) == {}
    ensures k in taken ==> ClashAt(taken, [k] + keys, 0)
  {
    assert ([k] + keys)[..0] == [];
  }

  /** After an export loop that did not throw, each exportable method's key
      maps to the pointer of the delegate cached for that method. */
  lemma {:induction false} ExportAllPointers(rt: Runtime, shared: Shared, events: Slots, typeFullName: string, methods: seq<MethodDesc>, i: nat)
    requires i < |methods| && Exportable(methods[i])
    requires ExportAll(rt, shared, events, typeFullName, methods).thrown.None?
    ensures var r := ExportAll(rt, shared, events, typeFullName, methods);
            var key := rt.hash(ExportName(typeFullName, methods[i]));
            && key in r.shared.userFunctions
            && DelegateKey(methods[i]) in r.shared.delegatesCache
            && r.shared.userFunctions[key] == rt.pointerOf(r.shared.delegatesCache[DelegateKey(methods[i])])
    decreases |methods|
  {
    var step := ExportStep(rt, shared, events, typeFullName, methods[0]);
    var r := ExportAll(rt, step.shared, events, typeFullName, methods[1..]);
    ExportAllCons(rt, shared, events, typeFullName, methods);
    assert step.thrown.None?;
    if i > 0 {
      assert methods[1..][i - 1] == methods[i];
      ExportAllPointers(rt, step.shared, events, typeFullName, methods[1..], i - 1);
    } else {
      ExportStepSpec(rt, shared, events, typeFullName, methods[0]);
      KeptByExtends(rt, step.shared, r.shared, rt.hash(ExportName(typeFullName, methods[0])), DelegateKey(methods[0]));
    }
  }

  /** An export entry and the delegate it points to both survive any later
      extension of the state. */
  lemma KeptByExtends(rt: Runtime, s: Shared, t: Shared, key: int32, dk: string)
    requires Extends(s, t)
    requires key in s.userFunctions && dk in s.delegatesCache
    requires s.userFunctions[key] == rt.pointerOf(s.delegatesCache[dk])
    ensures key in t.userFunctions && dk in t.delegatesCache
    ensures t.userFunctions[key] == rt.pointerOf(t.delegatesCache[dk])
  {
  }
}

=== FILE: lifecycle.dfy ===
/**
 The lifecycle resolver: in a public type named `Main`, each public static
 non-generic method named after one of the five hooks has its pointer
 written to the hook's slot. A hook declared with exactly one parameter is
 an error; one with two or more parameters is passed over by the `<= 1`
 guard without a word.
 */
module Lifecycle {
  import opened Clr
  import opened Thunks
  import opened Passes

  /** The hook names, by slot. */
  const Hooks: seq<string> := ["StartMod", "StopMod", "ProgramStart", "UnrealInit", "Update"]

  /** The slot a hook name writes, as the chain of name tests assigns them. */
  function HookSlot(name: string): (r: Option<nat>)
    ensures r.Some? <==> name in Hooks
    ensures r.Some? ==> r.value < |Hooks| && Hooks[r.value] == name
  {
    if name == "StartMod" then Some(0)
    else if name == "StopMod" then Some(1)
    else if name == "ProgramStart" then Some(2)
    else if name == "UnrealInit" then Some(3)
    else if name == "Update" then Some(4)
    else None
  }

  /** The type whose methods are scanned for hooks. */
  predicate IsMainType(t: TypeDesc)
  {
    t.name == "Main" && t.isPublic
  }

  /** A method that fills the slot of `hook`. */
  predicate WellDeclaredHook(m: MethodDesc, hook: string)
  {
    Callable(m) && |m.parameters| == 0 && m.name == hook
  }

  /** A method that makes the resolver throw. */
  predicate MisdeclaredHook(m: MethodDesc)
  {
    Callable(m) && |m.parameters| == 1 && m.name in Hooks
  }

  /** A method whose pointer the resolver asks for: a hook of any name,
      declared without parameters. */
  predicate BoundHook(m: MethodDesc)
  {
    Callable(m) && |m.parameters| == 0 && m.name in Hooks
  }

  /** One iteration of the hook loop over `Main`'s methods. */
  function HookStep(rt: Runtime, shared: Shared, events: Slots, m: MethodDesc): (r: Run)
    ensures Extends(shared, r.shared)
    ensures r.shared.userFunctions == shared.userFunctions
  {
    if Callable(m) && |m.parameters| <= 1 then
      match HookSlot(m.name)
      case None => Run(shared, events, None)
      case Some(slot) =>
        if |m.parameters| == 0 then
          var p := GetFunctionPointer(rt, shared, m);
          match p.pointer
          case None => Run(p.shared, events, Some(BindFailure(DelegateKey(m))))
          case Some(pointer) => Run(p.shared, events[slot := pointer], None)
        else
          Run(shared, events, Some(HookTakesArguments(m.name)))
    else
      Run(shared, events, None)
  }

  /** The hook loop: stops at the first exception, keeping what was written. */
  function ResolveHooks(rt: Runtime, shared: Shared, events: Slots, methods: seq<MethodDesc>): (r: Run)
    ensures Extends(shared, r.shared)
    ensures r.shared.userFunctions == shared.userFunctions
    decreases |methods|
  {
    if methods == [] then Run(shared, events, None)
    else
      var step := HookStep(rt, shared, events, methods[0]);
      if step.thrown.Some? then step
      else
        var rest := ResolveHooks(rt, step.shared, step.events, methods[1..]);
        ExtendsTransitive(shared, step.shared, rest.shared);
        rest
  }

  lemma HookStepKeepsValid(rt: Runtime, shared: Shared, events: Slots, m: MethodDesc)
    requires Valid(shared)
    ensures Valid(HookStep(rt, shared, events, m).shared)
  {
    var r := HookStep(rt, shared, events, m);
    if BoundHook(m) {
      GetFunctionPointerKeepsValid(rt, shared, m);
      assert r.shared == GetFunctionPointer(rt, shared, m).shared;
    } else {
      assert r.shared == shared;
    }
  }

  /** The hook loop keeps the cache invariant. */
  lemma {:induction false} ResolveHooksKeepsValid(rt: Runtime, shared: Shared, events: Slots, methods: seq<MethodDesc>)
    requires Valid(shared)
    ensures Valid(ResolveHooks(rt, shared, events, methods).shared)
    decreases |methods|
  {
    if methods != [] {
      var step := HookStep(rt, shared, events, methods[0]);
      HookStepKeepsValid(rt, shared, events, methods[0]);
      if step.thrown.None? {
        ResolveHooksKeepsValid(rt, step.shared, step.events, methods[1..]);
        assert ResolveHooks(rt, shared, events, methods) == ResolveHooks(rt, step.shared, step.events, methods[1..]);
      }
    }
  }

  /** One hook step throws exactly for a hook declared with one parameter,
      naming it, and for a hook without parameters that `CreateDelegate`
      refuses, naming its delegate key and leaving only the delegate type
      `GetDelegateType` resolved behind. */
  lemma HookStepThrows(rt: Runtime, shared: Shared, events: Slots, m: MethodDesc)
    ensures var r := HookStep(rt, shared, events, m);
            && (MisdeclaredHook(m) ==> r == Run(shared, events, Some(HookTakesArguments(m.name))))
            && (BoundHook(m) ==> (r.thrown.Some? <==> BindFails(rt, shared, m)))
            && (BoundHook(m) && r.thrown.Some? ==>
                  r == Run(GetDelegateType(shared, m.parameters, m.returnType).shared, events,
                           Some(BindFailure(DelegateKey(m)))))
            && (!MisdeclaredHook(m) && !BoundHook(m) ==> r == Run(shared, events, None))
  {
  }

  /** No method of `methods` is a hook declared with one parameter. */
  predicate NoMisdeclaredHook(methods: seq<MethodDesc>)
  {
    forall k :: 0 <= k < |methods| ==> !MisdeclaredHook(methods[k])
  }

  /** The resolver's error `e` is the one of the `i`-th method: no hook
      before it is declared with one parameter, and it is either such a
      hook, named by `e`, or a hook without parameters whose delegate key
      `e` names. */
  predicate HookErrorAt(methods: seq<MethodDesc>, i: nat, e: Error)
  {
    && i < |methods|
    && NoMisdeclaredHook(methods[..i])
    && ((MisdeclaredHook(methods[i]) && e == HookTakesArguments(methods[i].name))
        || (BoundHook(methods[i]) && e == BindFailure(DelegateKey(methods[i]))))
  }

  lemma NoMisdeclaredHookTail(methods: seq<MethodDesc>)
    requires methods != [] && !MisdeclaredHook(methods[0]) && NoMisdeclaredHook(methods[1..])
    ensures NoMisdeclaredHook(methods)
  {
    forall k | 0 < k < |methods| ensures !MisdeclaredHook(methods[k]) {
      assert methods[k] == methods[1..][k - 1];
    }
  }

  lemma HookErrorAtTail(methods: seq<MethodDesc>, i: nat, e: Error)
    requires methods != [] && !MisdeclaredHook(methods[0]) && HookErrorAt(methods[1..], i, e)
    ensures HookErrorAt(methods, i + 1, e)
  {
    assert methods[1..][..i] == methods[1..i + 1];
    assert methods[..i + 1][1..] == methods[1..i + 1];
    NoMisdeclaredHookTail(methods[..i + 1]);
  }

  /** The resolver stops at the first method whose step throws. A run that
      does not throw met no hook declared with one parameter; a run that
      throws stopped at position `i`, with no such hook before it, either on
      a hook declared with one parameter, naming that hook, or on a hook
      without parameters that `CreateDelegate` refused. So a
      `HookTakesArguments` error names the first misdeclared hook. */
  lemma {:induction false} ResolveHooksThrows(rt: Runtime, shared: Shared, events: Slots, methods: seq<MethodDesc>)
      returns (i: nat)
    ensures var r := ResolveHooks(rt, shared, events, methods);
            && (r.thrown.None? ==> NoMisdeclaredHook(methods))
            && (r.thrown.Some? ==> HookErrorAt(methods, i, r.thrown.value))
    decreases |methods|
  {
    i := 0;
    if methods != [] {
      var step := HookStep(rt, shared, events, methods[0]);
      HookStepThrows(rt, shared, events, methods[0]);
      if step.thrown.None? {
        var tail := methods[1..];
        assert ResolveHooks(rt, shared, events, methods) == ResolveHooks(rt, step.shared, step.events, tail);
        var r := ResolveHooks(rt, step.shared, step.events, tail);
        var i' := ResolveHooksThrows(rt, step.shared, step.events, tail);
        i := i' + 1;
        if r.thrown.None? {
          NoMisdeclaredHookTail(methods);
        } else {
          HookErrorAtTail(methods, i', r.thrown.value);
        }
      } else {
        assert methods[..0] == [];
      }
    }
  }

  /** In a coherent pool that holds every hook the resolver binds, the
      resolver never meets a `CreateDelegate` failure and keeps the pool
      coherent. */
  lemma {:induction false} ResolveHooksCoherent(rt: Runtime, shared: Shared, events: Slots, methods: seq<MethodDesc>, pool: set<MethodDesc>)
    requires Coherent(shared.delegateTypesCache, pool)
    requires forall k :: 0 <= k < |methods| && BoundHook(methods[k]) ==> methods[k] in pool
    ensures var r := ResolveHooks(rt, shared, events, methods);
            && (r.thrown.Some? ==> r.thrown.value.HookTakesArguments?)
            && Coherent(r.shared.delegateTypesCache, pool)
    decreases |methods|
  {
    if methods != [] {
      var m := methods[0];
      var step := HookStep(rt, shared, events, m);
      HookStepThrows(rt, shared, events, m);
      if BoundHook(m) {
        CoherentBinds(rt, shared, m, pool);
        assert step.shared == GetFunctionPointer(rt, shared, m).shared;
      } else {
        assert step.shared == shared;
      }
      if step.thrown.None? {
        var tail := methods[1..];
        forall k | 0 <= k < |tail| && BoundHook(tail[k]) ensures tail[k] in pool {
          assert tail[k] == methods[k + 1];
        }
        ResolveHooksCoherent(rt, step.shared, step.events, tail, pool);
        assert ResolveHooks(rt, shared, events, methods) == ResolveHooks(rt, step.shared, step.events, tail);
      }
    }
  }

  /** A slot whose hook no method declares keeps the caller's value, whether
      or not the resolver throws. */
  lemma {:induction false} ResolveHooksKeepsSlot(rt: Runtime, shared: Shared, events: Slots, methods: seq<MethodDesc>, j: nat)
    requires j < |Hooks|
    requires forall i :: 0 <= i < |methods| ==> !WellDeclaredHook(methods[i], Hooks[j])
    ensures ResolveHooks(rt, shared, events, methods).events[j] == events[j]
    decreases |methods|
  {
    if methods != [] {
      var step := HookStep(rt, shared, events, methods[0]);
      assert !WellDeclaredHook(methods[0], Hooks[j]);
      assert step.events[j] == events[j];
      if step.thrown.None? {
        assert forall i :: 0 <= i < |methods[1..]| ==> methods[1..][i] == methods[i + 1];
        ResolveHooksKeepsSlot(rt, step.shared, step.events, methods[1..], j);
      }
    }
  }

  /** Every static method in `methods` is declared by the type `owner`. */
  predicate StaticsDeclaredBy(methods: seq<MethodDesc>, owner: string)
  {
    forall i :: 0 <= i < |methods| ==> Callable(methods[i]) ==> methods[i].declaringType == owner
  }

  /** A hook that fills its slot writes the pointer of the delegate cached
      under its own key, unless `CreateDelegate` refuses it, in which case
      nothing is written. */
  lemma HookStepWrites(rt: Runtime, shared: Shared, events: Slots, m: MethodDesc, j: nat)
    requires j < |Hooks| && WellDeclaredHook(m, Hooks[j])
    ensures var step := HookStep(rt, shared, events, m);
            && (step.thrown.None? <==> !BindFails(rt, shared, m))
            && (step.thrown.Some? ==> step.events == events)
            && (step.thrown.None? ==>
                  && DelegateKey(m) in step.shared.delegatesCache
                  && step.events[j] == rt.pointerOf(step.shared.delegatesCache[DelegateKey(m)]))
  {
  }

  /** After a resolver run that did not throw, the slot of a declared hook
      holds the pointer of the delegate cached for `<owner>.<hook>`. */
  lemma {:induction false} ResolveHooksWritesSlot(rt: Runtime, shared: Shared, events: Slots, methods: seq<MethodDesc>, owner: string, j: nat)
    requires j < |Hooks|
    requires StaticsDeclaredBy(methods, owner)
    requires exists i :: 0 <= i < |methods| && WellDeclaredHook(methods[i], Hooks[j])
    requires ResolveHooks(rt, shared, events, methods).thrown.None?
    ensures var r := ResolveHooks(rt, shared, events, methods);
            && owner + "." + Hooks[j] in r.shared.delegatesCache
            && r.events[j] == rt.pointerOf(r.shared.delegatesCache[owner + "." + Hooks[j]])
    decreases |methods|
  {
    var step := HookStep(rt, shared, events, methods[0]);
    var tail := methods[1..];
    assert step.thrown.None?;
    assert ResolveHooks(rt, shared, events, methods) == ResolveHooks(rt, step.shared, step.events, tail);
    forall i | 0 <= i < |tail| ensures Callable(tail[i]) ==> tail[i].declaringType == owner {
      assert tail[i] == methods[i + 1];
    }
    if exists i :: 0 <= i < |tail| && WellDeclaredHook(tail[i], Hooks[j]) {
      ResolveHooksWritesSlot(rt, step.shared, step.events, tail, owner, j);
    } else {
      forall i | 0 < i < |methods| ensures !WellDeclaredHook(methods[i], Hooks[j]) {
        assert methods[i] == tail[i - 1];
      }
      assert WellDeclaredHook(methods[0], Hooks[j]);
      HookStepWrites(rt, shared, events, methods[0], j);
      ResolveHooksKeepsSlot(rt, step.shared, step.events, tail, j);
    }
  }
}

=== FILE: loader.dfy ===
/**
 `Shared.Load`: the outer loop over the plugin's types. For a public type
 named `Main` the hook scan runs first, then every type's methods go through
 the export scan. The first exception ends the pass; the static tables and
 the slots keep every write made before it. On success the pass returns the
 static export table itself, so what it returns is `r.shared.userFunctions`.
 */
module Loader {
  import opened Clr
  import opened Thunks
  import opened Passes
  import opened Lifecycle
  import opened Exports

  /** One iteration of the loop over `GetTypes()`. */
  function TypeStep(rt: Runtime, shared: Shared, events: Slots, t: TypeDesc): (r: Run)
    ensures Extends(shared, r.shared)
  {
    if IsMainType(t) then
      var h := ResolveHooks(rt, shared, events, t.methods);
      if h.thrown.Some? then h
      else
        var e := ExportAll(rt, h.shared, h.events, t.fullName, t.methods);
        ExtendsTransitive(shared, h.shared, e.shared);
        e
    else
      ExportAll(rt, shared, events, t.fullName, t.methods)
  }

  /** The loop over the plugin's types: stops at the first exception. */
  function LoadTypes(rt: Runtime, shared: Shared, events: Slots, types: seq<TypeDesc>): (r: Run)
    ensures Extends(shared, r.shared)
    decreases |types|
  {
    if types == [] then Run(shared, events, None)
    else
      var step := TypeStep(rt, shared, events, types[0]);
      if step.thrown.Some? then step
      else
        var rest := LoadTypes(rt, step.shared, step.events, types[1..]);
        ExtendsTransitive(shared, step.shared, rest.shared);
        rest
  }

  /** `Shared.Load(events, pluginAssembly)`: the pass over the whole plugin. */
  function Load(rt: Runtime, shared: Shared, events: Slots, plugin: Assembly): (r: Run)
    ensures Extends(shared, r.shared)
  {
    LoadTypes(rt, shared, events, plugin.types)
  }

  /** A `Main` type with a hook declared with one parameter. */
  predicate TypeHasMisdeclaredHook(t: TypeDesc)
  {
    IsMainType(t) && exists j :: 0 <= j < |t.methods| && MisdeclaredHook(t.methods[j])
  }

  /** Some type of the plugin makes the hook scan throw. */
  predicate HasMisdeclaredHook(types: seq<TypeDesc>)
  {
    exists i :: 0 <= i < |types| && TypeHasMisdeclaredHook(types[i])
  }

  /** The export keys of the whole plugin, in the order the pass adds them. */
  function AllExportKeys(rt: Runtime, types: seq<TypeDesc>): seq<int32>
    decreases |types|
  {
    if types == [] then []
    else ExportKeys(rt, types[0].fullName, types[0].methods) + AllExportKeys(rt, types[1..])
  }

  lemma ElemsAppend(a: seq<int32>, b: seq<int32>)
    ensures Elems(a + b) == Elems(a) + Elems(b)
  {
  }

  lemma HasMisdeclaredHookCons(types: seq<TypeDesc>)
    requires types != []
    ensures HasMisdeclaredHook(types) <==> TypeHasMisdeclaredHook(types[0]) || HasMisdeclaredHook(types[1..])
  {
    if HasMisdeclaredHook(types[1..]) {
      var i :| 0 <= i < |types[1..]| && TypeHasMisdeclaredHook(types[1..][i]);
      assert types[i + 1] == types[1..][i];
    }
    if HasMisdeclaredHook(types) && !TypeHasMisdeclaredHook(types[0]) {
      var i :| 0 <= i < |types| && TypeHasMisdeclaredHook(types[i]);
      assert types[1..][i - 1] == types[i];
    }
  }

  /** Every method the pass may ask a pointer for: the exportable methods of
      every type, which include the hooks the resolver binds. */
  ghost function PluginPool(types: seq<TypeDesc>): set<MethodDesc>
  {
    set i, k | 0 <= i < |types| && 0 <= k < |types[i].methods| && Exportable(types[i].methods[k]) :: types[i].methods[k]
  }

  /** Every type's exportable methods belong to `pool`. */
  ghost predicate AllExportablesIn(types: seq<TypeDesc>, pool: set<MethodDesc>)
  {
    forall i :: 0 <= i < |types| ==> ExportablesIn(types[i].methods, pool)
  }

  lemma PluginPoolHoldsExportables(types: seq<TypeDesc>)
    ensures AllExportablesIn(types, PluginPool(types))
  {
    forall i, k | 0 <= i < |types| && 0 <= k < |types[i].methods| && Exportable(types[i].methods[k])
      ensures types[i].methods[k] in PluginPool(types)
    {
    }
  }

  /** One type's step: when it does not throw, the type has no misdeclared
      hook, its export keys were new and pairwise distinct, and it added
      exactly those (the hook scan leaves the export table alone). A hook
      error comes from a misdeclared hook, a duplicate error from a key
      already taken; with neither, only a `CreateDelegate` failure can throw. */
  lemma TypeStepOutcome(rt: Runtime, shared: Shared, events: Slots, t: TypeDesc)
    ensures var r := TypeStep(rt, shared, events, t);
            var taken := shared.userFunctions.Keys;
            var keys := ExportKeys(rt, t.fullName, t.methods);
            && (r.thrown.None? ==> !TypeHasMisdeclaredHook(t) && NoDuplicates(taken, keys))
            && (r.thrown.None? ==> r.shared.userFunctions.Keys == taken + Elems(keys))
            && (r.thrown.Some? && r.thrown.value.HookTakesArguments? ==> TypeHasMisdeclaredHook(t))
            && (r.thrown.Some? && r.thrown.value.DuplicateExport? ==> !NoDuplicates(taken, keys))
            && (!TypeHasMisdeclaredHook(t) && NoDuplicates(taken, keys) ==> r.thrown.None? || r.thrown.value.BindFailure?)
  {
    if IsMainType(t) {
      var h := ResolveHooks(rt, shared, events, t.methods);
      var i := ResolveHooksThrows(rt, shared, events, t.methods);
      if h.thrown.None? {
        ExportAllOutcome(rt, h.shared, h.events, t.fullName, t.methods);
        ExportAllNoHookError(rt, h.shared, h.events, t.fullName, t.methods);
      }
    } else {
      ExportAllOutcome(rt, shared, events, t.fullName, t.methods);
      ExportAllNoHookError(rt, shared, events, t.fullName, t.methods);
    }
  }

  /** In a coherent pool that holds the type's exportable methods, the step
      never meets a `CreateDelegate` failure and keeps the pool coherent. */
  lemma TypeStepCoherent(rt: Runtime, shared: Shared, events: Slots, t: TypeDesc, pool: set<MethodDesc>)
    requires Coherent(shared.delegateTypesCache, pool) && ExportablesIn(t.methods, pool)
    ensures var r := TypeStep(rt, shared, events, t);
            && (r.thrown.None? || !r.thrown.value.BindFailure?)
            && Coherent(r.shared.delegateTypesCache, pool)
  {
    if IsMainType(t) {
      var h := ResolveHooks(rt, shared, events, t.methods);
      ResolveHooksCoherent(rt, shared, events, t.methods, pool);
      if h.thrown.None? {
        ExportAllCoherent(rt, h.shared, h.events, t.fullName, t.methods, pool);
      }
    } else {
      ExportAllCoherent(rt, shared, events, t.fullName, t.methods, pool);
    }
  }

  /** One type's step: the facts of `TypeStepOutcome`, and, when no
      signature name is shared between shapes among its methods and the
      cache, success exactly when it has no misdeclared hook and its export
      keys are new and pairwise distinct. */
  lemma TypeStepSucceedsIff(rt: Runtime, shared: Shared, events: Slots, t: TypeDesc, pool: set<MethodDesc>)
    ensures var r := TypeStep(rt, shared, events, t);
            var taken := shared.userFunctions.Keys;
            var keys := ExportKeys(rt, t.fullName, t.methods);
            && (r.thrown.None? ==> !TypeHasMisdeclaredHook(t) && NoDuplicates(taken, keys))
            && (r.thrown.None? ==> r.shared.userFunctions.Keys == taken + Elems(keys))
            && (Coherent(shared.delegateTypesCache, pool) && ExportablesIn(t.methods, pool) ==>
                  (r.thrown.None? <==> !TypeHasMisdeclaredHook(t) && NoDuplicates(taken, keys)))
  {
    TypeStepOutcome(rt, shared, events, t);
    if Coherent(shared.delegateTypesCache, pool) && ExportablesIn(t.methods, pool) {
      TypeStepCoherent(rt, shared, events, t, pool);
    }
  }

  /** The pass over `types`: when it does not throw, no `Main` type declares
      a hook with one parameter, no export key met one already in the table
      or one added earlier in the same pass, and it added exactly the
      plugin's export keys. A hook error comes from a misdeclared hook, a
      duplicate error from a repeated key; with neither, only a
      `CreateDelegate` failure can throw. */
  lemma {:induction false} LoadTypesOutcome(rt: Runtime, shared: Shared, events: Slots, types: seq<TypeDesc>)
    ensures var r := LoadTypes(rt, shared, events, types);
            var taken := shared.userFunctions.Keys;
            var keys := AllExportKeys(rt, types);
            && (r.thrown.None? ==> !HasMisdeclaredHook(types) && NoDuplicates(taken, keys))
            && (r.thrown.None? ==> r.shared.userFunctions.Keys == taken + Elems(keys))
            && (r.thrown.Some? && r.thrown.value.HookTakesArguments? ==> HasMisdeclaredHook(types))
            && (r.thrown.Some? && r.thrown.value.DuplicateExport? ==> !NoDuplicates(taken, keys))
            && (!HasMisdeclaredHook(types) && NoDuplicates(taken, keys) ==> r.thrown.None? || r.thrown.value.BindFailure?)
    decreases |types|
  {
    if types == [] {
      assert Elems([]) == {};
    } else {
      var taken := shared.userFunctions.Keys;
      var t := types[0];
      var step := TypeStep(rt, shared, events, t);
      var first := ExportKeys(rt, t.fullName, t.methods);
      var later := AllExportKeys(rt, types[1..]);
      TypeStepOutcome(rt, shared, events, t);
      HasMisdeclaredHookCons(types);
      NoDuplicatesAppend(taken, first, later);
      assert AllExportKeys(rt, types) == first + later;
      if step.thrown.None? {
        LoadTypesOutcome(rt, step.shared, step.events, types[1..]);
        ElemsAppend(first, later);
        assert LoadTypes(rt, shared, events, types) == LoadTypes(rt, step.shared, step.events, types[1..]);
      }
    }
  }

  /** In a coherent pool that holds every type's exportable methods, the pass
      never meets a `CreateDelegate` failure and keeps the pool coherent. */
  lemma {:induction false} LoadTypesCoherent(rt: Runtime, shared: Shared, events: Slots, types: seq<TypeDesc>, pool: set<MethodDesc>)
    requires Coherent(shared.delegateTypesCache, pool) && AllExportablesIn(types, pool)
    ensures var r := LoadTypes(rt, shared, events, types);
            && (r.thrown.None? || !r.thrown.value.BindFailure?)
            && Coherent(r.shared.delegateTypesCache, pool)
    decreases |types|
  {
    if types != [] {
      var step := TypeStep(rt, shared, events, types[0]);
      TypeStepCoherent(rt, shared, events, types[0], pool);
      if step.thrown.None? {
        var tail := types[1..];
        forall i | 0 <= i < |tail| ensures ExportablesIn(tail[i].methods, pool) {
          assert tail[i] == types[i + 1];
        }
        LoadTypesCoherent(rt, step.shared, step.events, tail, pool);
        assert LoadTypes(rt, shared, events, types) == LoadTypes(rt, step.shared, step.events, tail);
      }
    }
  }

  /** The pass over `types`: the facts of `LoadTypesOutcome`, and, when no
      signature name is shared between shapes among the plugin's methods and
      the cache, success exactly when no `Main` type declares a hook with one
      parameter and the plugin's export keys are new and pairwise distinct. */
  lemma LoadTypesSucceedsIff(rt: Runtime, shared: Shared, events: Slots, types: seq<TypeDesc>, pool: set<MethodDesc>)
    ensures var r := LoadTypes(rt, shared, events, types);
            var taken := shared.userFunctions.Keys;
            var keys := AllExportKeys(rt, types);
            && (r.thrown.None? ==> !HasMisdeclaredHook(types) && NoDuplicates(taken, keys))
            && (r.thrown.None? ==> r.shared.userFunctions.Keys == taken + Elems(keys))
            && (Coherent(shared.delegateTypesCache, pool) && AllExportablesIn(types, pool) ==>
                  (r.thrown.None? <==> !HasMisdeclaredHook(types) && NoDuplicates(taken, keys)))
  {
    LoadTypesOutcome(rt, shared, events, types);
    if Coherent(shared.delegateTypesCache, pool) && AllExportablesIn(types, pool) {
      LoadTypesCoherent(rt, shared, events, types, pool);
    }
  }

  /** `Load`: a table it returns holds the keys it held before and the
      plugin's export keys, which were new and pairwise distinct, and the
      plugin has no misdeclared hook. When no signature name is shared
      between shapes among the plugin's methods and the cache, `Load`
      succeeds exactly under those two conditions. */
  lemma LoadSucceedsIff(rt: Runtime, shared: Shared, events: Slots, plugin: Assembly)
    ensures var r := Load(rt, shared, events, plugin);
            var taken := shared.userFunctions.Keys;
            var keys := AllExportKeys(rt, plugin.types);
            && (r.thrown.None? ==> !HasMisdeclaredHook(plugin.types) && NoDuplicates(taken, keys))
            && (r.thrown.None? ==> r.shared.userFunctions.Keys == taken + Elems(keys))
            && (r.thrown.Some? && r.thrown.value.HookTakesArguments? ==> HasMisdeclaredHook(plugin.types))
            && (r.thrown.Some? && r.thrown.value.DuplicateExport? ==> !NoDuplicates(taken, keys))
            && (Coherent(shared.delegateTypesCache, PluginPool(plugin.types)) ==>
                  (r.thrown.None? <==> !HasMisdeclaredHook(plugin.types) && NoDuplicates(taken, keys)))
  {
    LoadTypesOutcome(rt, shared, events, plugin.types);
    PluginPoolHoldsExportables(plugin.types);
    LoadTypesSucceedsIff(rt, shared, events, plugin.types, PluginPool(plugin.types));
  }

  /** When the pass throws, it stopped at the `n`-th export key: every key
      before that one went in and stays in the table, nothing is rolled
      back, and a `DuplicateExport` names that key, the first one already
      present. */
  lemma TypeStepFailsAt(rt: Runtime, shared: Shared, events: Slots, t: TypeDesc) returns (n: nat)
    requires TypeStep(rt, shared, events, t).thrown.Some?
    ensures var r := TypeStep(rt, shared, events, t);
            var taken := shared.userFunctions.Keys;
            var keys := ExportKeys(rt, t.fullName, t.methods);
            && AddedFirst(taken, keys, n)
            && r.shared.userFunctions.Keys == taken + Elems(keys[..n])
            && (r.thrown.value.DuplicateExport? ==> ClashAt(taken, keys, n) && r.thrown == Some(DuplicateExport(keys[n])))
  {
    var keys := ExportKeys(rt, t.fullName, t.methods);
    var h := ResolveHooks(rt, shared, events, t.methods);
    if IsMainType(t) && h.thrown.Some? {
      var i := ResolveHooksThrows(rt, shared, events, t.methods);
      n := 0;
      assert keys[..0] == [];
      assert Elems([]) == {};
    } else if IsMainType(t) {
      n := ExportAllFailsAt(rt, h.shared, h.events, t.fullName, t.methods);
    } else {
      n := ExportAllFailsAt(rt, shared, events, t.fullName, t.methods);
    }
  }

  /** When `Load` throws, it stopped at the `n`-th of the plugin's export
      keys: every key before it went in and stays in the static table, and a
      `DuplicateExport` names that key, the first one already present. */
  lemma {:induction false} LoadTypesFailsAt(rt: Runtime, shared: Shared, events: Slots, types: seq<TypeDesc>) returns (n: nat)
    requires LoadTypes(rt, shared, events, types).thrown.Some?
    ensures var r := LoadTypes(rt, shared, events, types);
            var taken := shared.userFunctions.Keys;
            var keys := AllExportKeys(rt, types);
            && AddedFirst(taken, keys, n)
            && r.shared.userFunctions.Keys == taken + Elems(keys[..n])
            && (r.thrown.value.DuplicateExport? ==> ClashAt(taken, keys, n) && r.thrown == Some(DuplicateExport(keys[n])))
    decreases |types|
  {
    var taken := shared.userFunctions.Keys;
    var t := types[0];
    var step := TypeStep(rt, shared, events, t);
    var first := ExportKeys(rt, t.fullName, t.methods);
    var later := AllExportKeys(rt, types[1..]);
    assert AllExportKeys(rt, types) == first + later;
    if step.thrown.Some? {
      assert LoadTypes(rt, shared, events, types) == step;
      n := TypeStepFailsAt(rt, shared, events, t);
      AddedFirstPrefix(taken, first, later, n);
    } else {
      assert LoadTypes(rt, shared, events, types) == LoadTypes(rt, step.shared, step.events, types[1..]);
      TypeStepOutcome(rt, shared, events, t);
      var n' := LoadTypesFailsAt(rt, step.shared, step.events, types[1..]);
      n := |first| + n';
      AddedFirstSuffix(taken, first, later, n');
    }
  }

  lemma LoadFailsAt(rt: Runtime, shared: Shared, events: Slots, plugin: Assembly) returns (n: nat)
    requires Load(rt, shared, events, plugin).thrown.Some?
    ensures var r := Load(rt, shared, events, plugin);
            var taken := shared.userFunctions.Keys;
            var keys := AllExportKeys(rt, plugin.types);
            && AddedFirst(taken, keys, n)
            && r.shared.userFunctions.Keys == taken + Elems(keys[..n])
            && (r.thrown.value.DuplicateExport? ==> ClashAt(taken, keys, n) && r.thrown == Some(DuplicateExport(keys[n])))
  {
    n := LoadTypesFailsAt(rt, shared, events, plugin.types);
  }

  lemma TypeStepKeepsValid(rt: Runtime, shared: Shared, events: Slots, t: TypeDesc)
    requires Valid(shared)
    ensures Valid(TypeStep(rt, shared, events, t).shared)
  {
    if IsMainType(t) {
      var h := ResolveHooks(rt, shared, events, t.methods);
      ResolveHooksKeepsValid(rt, shared, events, t.methods);
      if h.thrown.None? {
        ExportAllKeepsValid(rt, h.shared, h.events, t.fullName, t.methods);
      }
    } else {
      ExportAllKeepsValid(rt, shared, events, t.fullName, t.methods);
    }
  }

  lemma {:induction false} LoadTypesKeepsValid(rt: Runtime, shared: Shared, events: Slots, types: seq<TypeDesc>)
    requires Valid(shared)
    ensures Valid(LoadTypes(rt, shared, events, types).shared)
    decreases |types|
  {
    if types != [] {
      var step := TypeStep(rt, shared, events, types[0]);
      TypeStepKeepsValid(rt, shared, events, types[0]);
      if step.thrown.None? {
        LoadTypesKeepsValid(rt, step.shared, step.events, types[1..]);
        assert LoadTypes(rt, shared, events, types) == LoadTypes(rt, step.shared, step.events, types[1..]);
      }
    }
  }

  /** Every pass, successful or not, keeps the caches consistent: each
      signature name was synthesised once and each delegate key created
      once. */
  lemma LoadKeepsValid(rt: Runtime, shared: Shared, events: Slots, plugin: Assembly)
    requires Valid(shared)
    ensures Valid(Load(rt, shared, events, plugin).shared)
  {
    LoadTypesKeepsValid(rt, shared, events, plugin.types);
  }

  /** No `Main` type of `types` fills slot `j`. */
  predicate NoHookFor(types: seq<TypeDesc>, j: nat)
    requires j < |Hooks|
  {
    forall i, k :: 0 <= i < |types| && IsMainType(types[i]) && 0 <= k < |types[i].methods|
                   ==> !WellDeclaredHook(types[i].methods[k], Hooks[j])
  }

  /** A slot that no `Main` type declares a hook for keeps the value the
      caller put there, whether or not the pass throws. */
  lemma {:induction false} LoadTypesKeepsSlot(rt: Runtime, shared: Shared, events: Slots, types: seq<TypeDesc>, j: nat)
    requires j < |Hooks| && NoHookFor(types, j)
    ensures LoadTypes(rt, shared, events, types).events[j] == events[j]
    decreases |types|
  {
    if types != [] {
      var t := types[0];
      var step := TypeStep(rt, shared, events, t);
      if IsMainType(t) {
        assert forall k :: 0 <= k < |t.methods| ==> !WellDeclaredHook(t.methods[k], Hooks[j]);
        ResolveHooksKeepsSlot(rt, shared, events, t.methods, j);
      }
      assert step.events[j] == events[j];
      if step.thrown.None? {
        assert forall i :: 0 <= i < |types[1..]| ==> types[1..][i] == types[i + 1];
        LoadTypesKeepsSlot(rt, step.shared, step.events, types[1..], j);
      }
    }
  }

  lemma LoadKeepsSlot(rt: Runtime, shared: Shared, events: Slots, plugin: Assembly, j: nat)
    requires j < |Hooks| && NoHookFor(plugin.types, j)
    ensures Load(rt, shared, events, plugin).events[j] == events[j]
  {
    LoadTypesKeepsSlot(rt, shared, events, plugin.types, j);
  }

  /** A `Main` type whose hook scan did not throw has written its hook's
      pointer into the slot. When no later type declares that hook, the slot
      still holds that pointer at the end of the pass, whether the type's
      export scan or a later type throws or not, and the delegate it points
      into stays cached. */
  lemma LoadTypesKeepsWrittenSlot(rt: Runtime, shared: Shared, events: Slots, types: seq<TypeDesc>, j: nat)
    requires types != [] && IsMainType(types[0]) && StaticsDeclaredBy(types[0].methods, types[0].fullName)
    requires j < |Hooks| && exists k :: 0 <= k < |types[0].methods| && WellDeclaredHook(types[0].methods[k], Hooks[j])
    requires ResolveHooks(rt, shared, events, types[0].methods).thrown.None?
    requires NoHookFor(types[1..], j)
    ensures var h := ResolveHooks(rt, shared, events, types[0].methods);
            var r := LoadTypes(rt, shared, events, types);
            var key := types[0].fullName + "." + Hooks[j];
            && key in h.shared.delegatesCache
            && r.events[j] == rt.pointerOf(h.shared.delegatesCache[key])
            && key in r.shared.delegatesCache
            && r.shared.delegatesCache[key] == h.shared.delegatesCache[key]
  {
    var t := types[0];
    var h := ResolveHooks(rt, shared, events, t.methods);
    var e := ExportAll(rt, h.shared, h.events, t.fullName, t.methods);
    ResolveHooksWritesSlot(rt, shared, events, t.methods, t.fullName, j);
    var step := TypeStep(rt, shared, events, t);
    assert step == e;
    if step.thrown.None? {
      LoadTypesKeepsSlot(rt, step.shared, step.events, types[1..], j);
      assert LoadTypes(rt, shared, events, types) == LoadTypes(rt, step.shared, step.events, types[1..]);
    } else {
      assert LoadTypes(rt, shared, events, types) == step;
    }
  }

  /** The loop over `a + b` is the loop over `a`, continued over `b` from
      where it left off when it did not throw. */
  lemma {:induction false} LoadTypesAppend(rt: Runtime, shared: Shared, events: Slots, a: seq<TypeDesc>, b: seq<TypeDesc>)
    ensures var first := LoadTypes(rt, shared, events, a);
            LoadTypes(rt, shared, events, a + b)
            == if first.thrown.Some? then first else LoadTypes(rt, first.shared, first.events, b)
    decreases |a|
  {
    if a == [] {
      assert a + b == b;
    } else {
      var step := TypeStep(rt, shared, events, a[0]);
      assert (a + b)[0] == a[0];
      assert (a + b)[1..] == a[1..] + b;
      if step.thrown.None? {
        LoadTypesAppend(rt, step.shared, step.events, a[1..], b);
      }
    }
  }

  /** The slot a `Main` type at any position writes, when the types before
      it did not throw and its own hook scan did not throw, keeps that
      pointer to the end of `Load`, even when its export scan or a later type
      throws, as long as no later type declares the hook again; the delegate
      it points into stays cached. */
  lemma LoadKeepsWrittenSlot(rt: Runtime, shared: Shared, events: Slots, plugin: Assembly, i: nat, j: nat)
    requires i < |plugin.types|
    requires var t := plugin.types[i];
             && IsMainType(t) && StaticsDeclaredBy(t.methods, t.fullName)
             && j < |Hooks| && (exists k :: 0 <= k < |t.methods| && WellDeclaredHook(t.methods[k], Hooks[j]))
    requires var pre := LoadTypes(rt, shared, events, plugin.types[..i]);
             && pre.thrown.None?
             && ResolveHooks(rt, pre.shared, pre.events, plugin.types[i].methods).thrown.None?
    requires j < |Hooks| && NoHookFor(plugin.types[i + 1..], j)
    ensures var pre := LoadTypes(rt, shared, events, plugin.types[..i]);
            var h := ResolveHooks(rt, pre.shared, pre.events, plugin.types[i].methods);
            var r := Load(rt, shared, events, plugin);
            var key := plugin.types[i].fullName + "." + Hooks[j];
            && key in h.shared.delegatesCache
            && r.events[j] == rt.pointerOf(h.shared.delegatesCache[key])
            && key in r.shared.delegatesCache
            && r.shared.delegatesCache[key] == h.shared.delegatesCache[key]
  {
    var types := plugin.types;
    var pre := LoadTypes(rt, shared, events, types[..i]);
    assert types == types[..i] + types[i..];
    LoadTypesAppend(rt, shared, events, types[..i], types[i..]);
    assert types[i..][0] == types[i];
    assert types[i..][1..] == types[i + 1..];
    LoadTypesKeepsWrittenSlot(rt, pre.shared, pre.events, types[i..], j);
  }

  /** The plugin exports at least one method. */
  predicate ExportsSomething(types: seq<TypeDesc>)
  {
    exists i, k :: 0 <= i < |types| && 0 <= k < |types[i].methods| && Exportable(types[i].methods[k])
  }

  lemma ExportKeysNonEmpty(rt: Runtime, typeFullName: string, methods: seq<MethodDesc>, k: nat)
    requires k < |methods| && Exportable(methods[k])
    ensures rt.hash(ExportName(typeFullName, methods[k])) in Elems(ExportKeys(rt, typeFullName, methods))
    decreases |methods|
  {
    if k > 0 {
      ExportKeysNonEmpty(rt, typeFullName, methods[1..], k - 1);
    }
  }

  lemma {:induction false} AllExportKeysNonEmpty(rt: Runtime, types: seq<TypeDesc>, i: nat, k: nat)
    requires i < |types| && k < |types[i].methods| && Exportable(types[i].methods[k])
    ensures rt.hash(ExportName(types[i].fullName, types[i].methods[k])) in Elems(AllExportKeys(rt, types))
    decreases |types|
  {
    var first := ExportKeys(rt, types[0].fullName, types[0].methods);
    var later := AllExportKeys(rt, types[1..]);
    assert AllExportKeys(rt, types) == first + later;
    ElemsAppend(first, later);
    if i == 0 {
      ExportKeysNonEmpty(rt, types[0].fullName, types[0].methods, k);
    } else {
      assert types[1..][i - 1] == types[i];
      AllExportKeysNonEmpty(rt, types[1..], i - 1, k);
    }
  }

  /** The export table is static and `Add` refuses a present key, so loading
      a plugin that exports anything a second time throws, whatever the first
      load left behind. */
  lemma ReloadFails(rt: Runtime, shared: Shared, events: Slots, plugin: Assembly)
    requires ExportsSomething(plugin.types)
    requires Load(rt, shared, events, plugin).thrown.None?
    ensures var first := Load(rt, shared, events, plugin);
            Load(rt, first.shared, first.events, plugin).thrown.Some?
  {
    var first := Load(rt, shared, events, plugin);
    var keys := AllExportKeys(rt, plugin.types);
    var i, k :| 0 <= i < |plugin.types| && 0 <= k < |plugin.types[i].methods| && Exportable(plugin.types[i].methods[k]);
    AllExportKeysNonEmpty(rt, plugin.types, i, k);
    LoadSucceedsIff(rt, shared, events, plugin);
    LoadSucceedsIff(rt, first.shared, first.events, plugin);
    var h := rt.hash(ExportName(plugin.types[i].fullName, plugin.types[i].methods[k]));
    var n :| 0 <= n < |keys| && keys[n] == h;
    assert keys[n] in first.shared.userFunctions.Keys;
  }

  /** A hook of `Main` is also exported under its own name, and the slot and
      the export entry hold the same pointer, taken from the one delegate
      cached for the method. */
  lemma HookIsExported(rt: Runtime, shared: Shared, events: Slots, t: TypeDesc, j: nat, k: nat)
    requires IsMainType(t) && StaticsDeclaredBy(t.methods, t.fullName)
    requires j < |Hooks| && k < |t.methods| && WellDeclaredHook(t.methods[k], Hooks[j])
    requires TypeStep(rt, shared, events, t).thrown.None?
    ensures var r := TypeStep(rt, shared, events, t);
            var key := rt.hash(t.fullName + "." + Hooks[j]);
            && key in r.shared.userFunctions
            && r.events[j] == r.shared.userFunctions[key]
  {
    var m := t.methods[k];
    var h := ResolveHooks(rt, shared, events, t.methods);
    var e := ExportAll(rt, h.shared, h.events, t.fullName, t.methods);
    assert h.thrown.None? && TypeStep(rt, shared, events, t) == e;
    ResolveHooksWritesSlot(rt, shared, events, t.methods, t.fullName, j);
    assert Exportable(m) && DelegateKey(m) == t.fullName + "." + Hooks[j];
    ExportAllPointers(rt, h.shared, h.events, t.fullName, t.methods, k);
  }
}

=== FILE: naming.dfy ===
/**
 Signature naming: `GetTypeName` strips the namespace separators from a type's
 full name, and `GetMethodName` joins the return type's name and each
 parameter type's name with `_`. The resulting string is the key under which
 a synthesised delegate type is cached.
 */
module Naming {
  import opened Clr

  /** `s.Replace(".", "", StringComparison.Ordinal)`: every `.` removed. */
  function StripDots(s: string): (r: string)
    ensures '.' !in r
    ensures |r| <= |s|
  {
    if s == [] then []
    else if s[0] == '.' then StripDots(s[1..])
    else [s[0]] + StripDots(s[1..])
  }

  /** Every character other than `.` is kept, with its number of occurrences. */
  lemma {:induction false} StripDotsKeepsOthers(s: string)
    ensures forall c :: c != '.' ==> multiset(StripDots(s))[c] == multiset(s)[c]
    decreases |s|
  {
    if s != [] {
      assert s == [s[0]] + s[1..];
      StripDotsKeepsOthers(s[1..]);
    }
  }

  /** Stripping distributes over concatenation, so the kept characters stay in order. */
  lemma {:induction false} StripDotsAppend(a: string, b: string)
    ensures StripDots(a + b) == StripDots(a) + StripDots(b)
    decreases |a|
  {
    if a == [] {
      assert a + b == b;
    } else {
      assert (a + b)[0] == a[0];
      assert (a + b)[1..] == a[1..] + b;
      StripDotsAppend(a[1..], b);
    }
  }

  /** A name without dots is returned unchanged. */
  lemma {:induction false} StripDotsKeepsDotFree(s: string)
    requires '.' !in s
    ensures StripDots(s) == s
    decreases |s|
  {
    if s != [] {
      assert s == [s[0]] + s[1..];
      StripDotsKeepsDotFree(s[1..]);
    }
  }

  /** Stripping twice is stripping once. */
  lemma StripDotsIdempotent(s: string)
    ensures StripDots(StripDots(s)) == StripDots(s)
  {
    StripDotsKeepsDotFree(StripDots(s));
  }

  /** `GetTypeName`: the full name without its dots. */
  function GetTypeName(t: TypeRef): (r: string)
    ensures '.' !in r
  {
    StripDots(t.fullName)
  }

  /** The `"_" + GetTypeName(p)` pieces for the parameters, in declared order. */
  function Joined(parameters: seq<TypeRef>): string
  {
    if parameters == [] then ""
    else "_" + GetTypeName(parameters[0]) + Joined(parameters[1..])
  }

  /** The name `GetMethodName` computes: the return type's name followed by
      one `_`-prefixed name per parameter. */
  function SignatureName(parameters: seq<TypeRef>, returnType: TypeRef): (r: string)
    ensures '.' !in r
    ensures parameters == [] ==> r == GetTypeName(returnType)
    ensures |GetTypeName(returnType)| <= |r| && r[..|GetTypeName(returnType)|] == GetTypeName(returnType)
  {
    JoinedHasNoDot(parameters);
    GetTypeName(returnType) + Joined(parameters)
  }

  lemma {:induction false} JoinedHasNoDot(parameters: seq<TypeRef>)
    ensures '.' !in Joined(parameters)
    decreases |parameters|
  {
    if parameters != [] {
      JoinedHasNoDot(parameters[1..]);
    }
  }

  /** Appending a parameter appends its `_`-prefixed name. */
  lemma {:induction false} JoinedSnoc(parameters: seq<TypeRef>, p: TypeRef)
    ensures Joined(parameters + [p]) == Joined(parameters) + "_" + GetTypeName(p)
    decreases |parameters|
  {
    if parameters == [] {
      assert parameters + [p] == [p];
      assert [p][1..] == [];
    } else {
      assert (parameters + [p])[0] == parameters[0];
      assert (parameters + [p])[1..] == parameters[1..] + [p];
      JoinedSnoc(parameters[1..], p);
    }
  }

  /** `GetMethodName`, with the string-building loop of the source. */
  method GetMethodName(parameters: seq<TypeRef>, returnType: TypeRef) returns (name: string)
    ensures name == SignatureName(parameters, returnType)
  {
    name := GetTypeName(returnType);
    var i := 0;
    while i < |parameters|
      invariant 0 <= i <= |parameters|
      invariant name == GetTypeName(returnType) + Joined(parameters[..i])
    {
      JoinedSnoc(parameters[..i], parameters[i]);
      assert parameters[..i + 1] == parameters[..i] + [parameters[i]];
      name := name + "_" + GetTypeName(parameters[i]);
      i := i + 1;
    }
    assert parameters[..i] == parameters;
  }

  /** No stripped type name in the signature contains the separator `_`. */
  predicate UnderscoreFree(parameters: seq<TypeRef>, returnType: TypeRef)
  {
    '_' !in GetTypeName(returnType) && NoSeparator(parameters)
  }

  /** Two signatures whose stripped names agree position by position. */
  predicate SameStrippedNames(ps1: seq<TypeRef>, r1: TypeRef, ps2: seq<TypeRef>, r2: TypeRef)
  {
    GetTypeName(r1) == GetTypeName(r2) && SameLengthAndNames(ps1, ps2)
  }

  /** A word without `_` followed by a tail that is empty or starts with `_`
      splits in only one way. */
  lemma SplitAtSeparator(a: string, x: string, b: string, y: string)
    requires '_' !in a && '_' !in b
    requires x == [] || x[0] == '_'
    requires y == [] || y[0] == '_'
    requires a + x == b + y
    ensures a == b && x == y
  {
    FirstSeparatorAfter(a, x);
    FirstSeparatorAfter(b, y);
    assert a == (a + x)[..|a|];
    assert b == (b + y)[..|b|];
  }

  /** The position of the first `_` in `s`, or `|s|` when there is none. */
  function FirstSeparator(s: string): (k: nat)
    ensures k <= |s|
  {
    if s == [] || s[0] == '_' then 0 else 1 + FirstSeparator(s[1..])
  }

  lemma {:induction false} FirstSeparatorAfter(a: string, x: string)
    requires '_' !in a
    requires x == [] || x[0] == '_'
    ensures FirstSeparator(a + x) == |a|
    decreases |a|
  {
    if a == [] {
      assert a + x == x;
    } else {
      assert (a + x)[0] == a[0];
      assert (a + x)[1..] == a[1..] + x;
      FirstSeparatorAfter(a[1..], x);
    }
  }

  /** Every parameter's stripped name is free of `_`. */
  predicate NoSeparator(ps: seq<TypeRef>)
  {
    forall i :: 0 <= i < |ps| ==> '_' !in GetTypeName(ps[i])
  }

  lemma NoSeparatorSplit(ps: seq<TypeRef>)
    requires NoSeparator(ps) && ps != []
    ensures '_' !in GetTypeName(ps[0]) && NoSeparator(ps[1..])
  {
    forall i | 0 <= i < |ps[1..]| ensures '_' !in GetTypeName(ps[1..][i]) {
      assert ps[1..][i] == ps[i + 1];
    }
  }

  /** The parameter part of a key is empty or starts with the separator. */
  lemma {:induction false} JoinedShape(ps: seq<TypeRef>)
    ensures Joined(ps) == [] <==> ps == []
    ensures ps != [] ==> Joined(ps)[0] == '_' && Joined(ps)[1..] == GetTypeName(ps[0]) + Joined(ps[1..])
  {
    if ps != [] {
      var tail := GetTypeName(ps[0]) + Joined(ps[1..]);
      assert Joined(ps) == "_" + tail;
      assert ("_" + tail)[1..] == tail;
    }
  }

  lemma {:induction false} JoinedInjective(ps1: seq<TypeRef>, ps2: seq<TypeRef>)
    requires NoSeparator(ps1) && NoSeparator(ps2)
    requires Joined(ps1) == Joined(ps2)
    ensures SameLengthAndNames(ps1, ps2)
    decreases |ps1|
  {
    JoinedShape(ps1);
    JoinedShape(ps2);
    if ps1 != [] {
      NoSeparatorSplit(ps1);
      NoSeparatorSplit(ps2);
      JoinedShape(ps1[1..]);
      JoinedShape(ps2[1..]);
      SplitAtSeparator(GetTypeName(ps1[0]), Joined(ps1[1..]), GetTypeName(ps2[0]), Joined(ps2[1..]));
      JoinedInjective(ps1[1..], ps2[1..]);
      SameLengthAndNamesCons(ps1, ps2);
    }
  }

  /** Two parameter lists whose stripped names agree position by position. */
  predicate SameLengthAndNames(ps1: seq<TypeRef>, ps2: seq<TypeRef>)
  {
    |ps1| == |ps2| && forall i :: 0 <= i < |ps1| ==> GetTypeName(ps1[i]) == GetTypeName(ps2[i])
  }

  lemma SameLengthAndNamesCons(ps1: seq<TypeRef>, ps2: seq<TypeRef>)
    requires ps1 != [] && ps2 != []
    ensures SameLengthAndNames(ps1, ps2) <==>
              GetTypeName(ps1[0]) == GetTypeName(ps2[0]) && SameLengthAndNames(ps1[1..], ps2[1..])
  {
    if GetTypeName(ps1[0]) == GetTypeName(ps2[0]) && SameLengthAndNames(ps1[1..], ps2[1..]) {
      forall i | 0 <= i < |ps1| ensures GetTypeName(ps1[i]) == GetTypeName(ps2[i]) {
        if i > 0 {
          assert ps1[1..][i - 1] == ps1[i];
          assert ps2[1..][i - 1] == ps2[i];
        }
      }
    }
    if SameLengthAndNames(ps1, ps2) {
      forall i | 0 <= i < |ps1[1..]| ensures GetTypeName(ps1[1..][i]) == GetTypeName(ps2[1..][i]) {
        assert ps1[1..][i] == ps1[i + 1];
        assert ps2[1..][i] == ps2[i + 1];
      }
    }
  }

  /** Signatures with the same stripped names get the same key. When no
      stripped type name contains `_`, the converse holds too: the key
      determines the stripped return type name and the stripped parameter
      names, position by position. */
  lemma SignatureNameInjective(ps1: seq<TypeRef>, r1: TypeRef, ps2: seq<TypeRef>, r2: TypeRef)
    ensures SameStrippedNames(ps1, r1, ps2, r2) ==> SignatureName(ps1, r1) == SignatureName(ps2, r2)
    ensures UnderscoreFree(ps1, r1) && UnderscoreFree(ps2, r2) ==>
              (SignatureName(ps1, r1) == SignatureName(ps2, r2) <==> SameStrippedNames(ps1, r1, ps2, r2))
  {
    if UnderscoreFree(ps1, r1) && UnderscoreFree(ps2, r2) && SignatureName(ps1, r1) == SignatureName(ps2, r2) {
      JoinedShape(ps1);
      JoinedShape(ps2);
      SplitAtSeparator(GetTypeName(r1), Joined(ps1), GetTypeName(r2), Joined(ps2));
      JoinedInjective(ps1, ps2);
    }
    if SameStrippedNames(ps1, r1, ps2, r2) {
      JoinedCongruent(ps1, ps2);
    }
  }

  /** Signatures with the same stripped names get the same key. */
  lemma {:induction false} JoinedCongruent(ps1: seq<TypeRef>, ps2: seq<TypeRef>)
    requires SameLengthAndNames(ps1, ps2)
    ensures Joined(ps1) == Joined(ps2)
    decreases |ps1|
  {
    if ps1 != [] {
      SameLengthAndNamesCons(ps1, ps2);
      JoinedCongruent(ps1[1..], ps2[1..]);
    }
  }

  /** Joining two dot-free names with a `.` and stripping gives their concatenation. */
  lemma StripDotsOfQualified(p: string, q: string)
    requires '.' !in p && '.' !in q
    ensures StripDots(p + ['.'] + q) == p + q
  {
    var tail := ['.'] + q;
    assert p + ['.'] + q == p + tail;
    StripDotsAppend(p, tail);
    StripDotsDropsLeadingDot(q);
    StripDotsKeepsDotFree(p);
    StripDotsKeepsDotFree(q);
  }

  lemma StripDotsDropsLeadingDot(q: string)
    ensures StripDots(['.'] + q) == StripDots(q)
  {
    assert (['.'] + q)[1..] == q;
  }

  /** As written, the key does not determine the signature, even among the
      shapes that reach `GetDelegateType` in `Load` (no parameters, or one
      `ObjectReference`): a return type `p.q` and a return type `pq` give
      the same key (for instance `My.Data` against `MyData`), and so does one
      full name defined by two assemblies. The second shape is then handed
      the delegate type synthesised for the first. */
  lemma DistinctShapesShareName(p: string, q: string, a: string, b: string, parameters: seq<TypeRef>)
    requires '.' !in p && '.' !in q
    ensures var dotted, joined := TypeRef(p + ['.'] + q, a), TypeRef(p + q, a);
            && dotted != joined
            && SignatureName(parameters, dotted) == SignatureName(parameters, joined)
    ensures a != b ==> TypeRef(p, a) != TypeRef(p, b)
                       && SignatureName(parameters, TypeRef(p, a)) == SignatureName(parameters, TypeRef(p, b))
  {
    var dotted, joined := TypeRef(p + ['.'] + q, a), TypeRef(p + q, a);
    assert |dotted.fullName| != |joined.fullName|;
    StripDotsOfQualified(p, q);
    StripDotsKeepsDotFree(p + q);
  }
}

=== FILE: passes.dfy ===
/**
 What the two scans of `Shared.Load` share: the exceptions they throw, the
 five lifecycle slots behind the `events` pointer, and the state of the pass
 after a prefix of it. The static tables and the slots are written in place,
 so a thrown exception leaves every earlier write behind.
 */
module Passes {
  import opened Clr
  import opened Thunks

  /** The exceptions the pass throws, both `ArgumentException`s in the source. */
  datatype Error =
      /** A lifecycle hook declared with one parameter; the message is the
          hook's name followed by " should not have arguments". */
    | HookTakesArguments(hook: string)
      /** `Dictionary.Add` with a key already in the export table. */
    | DuplicateExport(key: int32)
      /** `CreateDelegate` refusing the delegate type cached for the method's
          signature name; `delegateKey` is the method's delegate cache key. */
    | BindFailure(delegateKey: string)

  /** The five `IntPtr` slots `events` points to. */
  type Slots = s: seq<IntPtr> | |s| == 5 witness [0, 0, 0, 0, 0]

  /** The pass so far: the static state, the slots, and the exception that
      stopped it, if one did. */
  datatype Run = Run(shared: Shared, events: Slots, thrown: Option<Error>)

  /** The elements of a key sequence. */
  function Elems(keys: seq<int32>): set<int32>
  {
    set k | k in keys
  }

  /** Inserting `keys` in order with `Add` into a table holding `taken`
      never meets a key already present. */
  ghost predicate NoDuplicates(taken: set<int32>, keys: seq<int32>)
  {
    && (forall i :: 0 <= i < |keys| ==> keys[i] !in taken)
    && (forall i, j :: 0 <= i < j < |keys| ==> keys[i] != keys[j])
  }

  lemma NoDuplicatesCons(taken: set<int32>, k: int32, keys: seq<int32>)
    ensures NoDuplicates(taken, [k] + keys) <==> k !in taken && NoDuplicates(taken + {k}, keys)
  {
    var all := [k] + keys;
    assert forall i :: 0 < i < |all| ==> all[i] == keys[i - 1];
    if k !in taken && NoDuplicates(taken + {k}, keys) {
      forall i, j | 0 <= i < j < |all| ensures all[i] != all[j] {
        if i > 0 {
          assert all[i] == keys[i - 1] && all[j] == keys[j - 1];
        }
      }
    }
    if NoDuplicates(taken, all) {
      assert all[0] == k;
      forall i | 0 <= i < |keys| ensures keys[i] !in taken + {k} {
        assert keys[i] == all[i + 1];
      }
      forall i, j | 0 <= i < j < |keys| ensures keys[i] != keys[j] {
        assert keys[i] == all[i + 1] && keys[j] == all[j + 1];
      }
    }
  }

  lemma {:induction false} NoDuplicatesAppend(taken: set<int32>, a: seq<int32>, b: seq<int32>)
    ensures NoDuplicates(taken, a + b) <==> NoDuplicates(taken, a) && NoDuplicates(taken + Elems(a), b)
    decreases |a|
  {
    if a == [] {
      assert a + b == b;
      assert Elems(a) == {};
      assert taken + Elems(a) == taken;
    } else {
      assert a + b == [a[0]] + (a[1..] + b);
      assert a == [a[0]] + a[1..];
      assert Elems(a) == {a[0]} + Elems(a[1..]);
      assert taken + Elems(a) == (taken + {a[0]}) + Elems(a[1..]);
      NoDuplicatesCons(taken, a[0], a[1..] + b);
      NoDuplicatesCons(taken, a[0], a[1..]);
      NoDuplicatesAppend(taken + {a[0]}, a[1..], b);
    }
  }

  /** Adding `keys` in order to a table holding `taken`, the first `n` keys
      went in without meeting a present key. */
  ghost predicate AddedFirst(taken: set<int32>, keys: seq<int32>, n: nat)
  {
    n <= |keys| && NoDuplicates(taken, keys[..n])
  }

  /** Adding `keys` in order to a table holding `taken` first meets a key
      already present at position `n`. */
  ghost predicate ClashAt(taken: set<int32>, keys: seq<int32>, n: nat)
  {
    n < |keys| && AddedFirst(taken, keys, n) && keys[n] in taken + Elems(keys[..n])
  }

  lemma AddedFirstCons(taken: set<int32>, k: int32, keys: seq<int32>, n: nat)
    requires k !in taken && AddedFirst(taken + {k}, keys, n)
    ensures AddedFirst(taken, [k] + keys, n + 1)
    ensures taken + {k} + Elems(keys[..n]) == taken + Elems(([k] + keys)[..n + 1])
    ensures ClashAt(taken + {k}, keys, n) ==> ClashAt(taken, [k] + keys, n + 1) && ([k] + keys)[n + 1] == keys[n]
  {
    var all := [k] + keys;
    assert all[..n + 1] == [k] + keys[..n];
    assert Elems(all[..n + 1]) == {k} + Elems(keys[..n]);
    NoDuplicatesCons(taken, k, keys[..n]);
  }

  /** A stop inside `a` is a stop at the same position of `a + b`. */
  lemma AddedFirstPrefix(taken: set<int32>, a: seq<int32>, b: seq<int32>, n: nat)
    requires AddedFirst(taken, a, n)
    ensures AddedFirst(taken, a + b, n) && (a + b)[..n] == a[..n]
    ensures ClashAt(taken, a, n) ==> ClashAt(taken, a + b, n) && (a + b)[n] == a[n]
  {
    assert (a + b)[..n] == a[..n];
  }

  /** A stop inside `b`, after all of `a` went in, is a stop at position
      `|a| + n` of `a + b`. */
  lemma AddedFirstSuffix(taken: set<int32>, a: seq<int32>, b: seq<int32>, n: nat)
    requires NoDuplicates(taken, a) && AddedFirst(taken + Elems(a), b, n)
    ensures AddedFirst(taken, a + b, |a| + n)
    ensures taken + Elems(a) + Elems(b[..n]) == taken + Elems((a + b)[..|a| + n])
    ensures ClashAt(taken + Elems(a), b, n) ==> ClashAt(taken, a + b, |a| + n) && (a + b)[|a| + n] == b[n]
  {
    assert (a + b)[..|a| + n] == a + b[..n];
    assert Elems(a + b[..n]) == Elems(a) + Elems(b[..n]);
    NoDuplicatesAppend(taken, a, b[..n]);
  }
}

=== FILE: thunks.dfy ===
/**
 The two-level thunk cache of `Shared`: `GetDelegateType` caches one
 synthesised delegate type per signature name, and `GetFunctionPointer`
 caches one delegate per `DeclaringType.FullName + "." + Name` and hands back
 the native pointer of that delegate. Both caches use get-or-add: the
 factory runs only for a key not yet present, and an existing entry is never
 replaced.
 */
module Thunks {
  import opened Clr
  import opened Naming

  /** The static fields of `Shared` that the pass reads and writes, with the
      number of `MakeDelegate` calls and of delegates `CreateDelegate` has
      made so far. */
  datatype Shared = Shared(
    userFunctions: map<int32, IntPtr>,
    delegatesCache: map<string, Delegate>,
    delegateTypesCache: map<string, DelegateType>,
    typesMade: nat,
    delegatesMade: nat)

  /** The state the static initialisers create: empty tables, nothing synthesised or created yet. */
  const Initial: Shared := Shared(map[], map[], map[], 0, 0)

  /** The delegate cache key: `$"{DeclaringType.FullName}.{Name}"`. */
  function DelegateKey(m: MethodDesc): string
  {
    m.declaringType + "." + m.name
  }

  /** Each synthesised delegate type is cached under its own name, carries the
      number of the `MakeDelegate` call that made it, and every call left
      exactly one entry behind. */
  ghost predicate TypesCacheValid(types: map<string, DelegateType>, made: nat)
  {
    && made == |types|
    && (forall n :: n in types ==> types[n].name == n && types[n].serial < made)
    && (forall n1, n2 :: n1 in types && n2 in types && n1 != n2 ==> types[n1].serial != types[n2].serial)
  }

  /** Each cached delegate sits under its target's key, is an instance of the
      delegate type cached for its target's signature, and every delegate
      created, that is every `CreateDelegate` call that returned, left
      exactly one entry behind; a refused call leaves none. */
  ghost predicate DelegatesCacheValid(delegates: map<string, Delegate>, made: nat, types: map<string, DelegateType>)
  {
    && DelegatesNumbered(delegates, made)
    && (forall k :: k in delegates ==> OfCachedType(types, delegates[k]))
  }

  /** `d` is an instance of the delegate type cached for its target's signature. */
  ghost predicate OfCachedType(types: map<string, DelegateType>, d: Delegate)
  {
    var name := SignatureName(d.target.parameters, d.target.returnType);
    name in types && types[name] == d.delegateType
  }

  /** The invariant of the two caches; the export table plays no part in it. */
  ghost predicate Valid(s: Shared)
  {
    && TypesCacheValid(s.delegateTypesCache, s.typesMade)
    && DelegatesCacheValid(s.delegatesCache, s.delegatesMade, s.delegateTypesCache)
  }

  /** `t` is `s` after some get-or-add and `Add` calls: no entry of any table
      was removed or replaced and no call was undone. */
  ghost predicate Extends(s: Shared, t: Shared)
  {
    && (forall h :: h in s.userFunctions ==> h in t.userFunctions && t.userFunctions[h] == s.userFunctions[h])
    && (forall k :: k in s.delegatesCache ==> k in t.delegatesCache && t.delegatesCache[k] == s.delegatesCache[k])
    && (forall n :: n in s.delegateTypesCache ==> n in t.delegateTypesCache && t.delegateTypesCache[n] == s.delegateTypesCache[n])
    && s.typesMade <= t.typesMade
    && s.delegatesMade <= t.delegatesMade
  }

  lemma InitialValid()
    ensures Valid(Initial)
  {
  }

  lemma ExtendsTransitive(s: Shared, t: Shared, u: Shared)
    requires Extends(s, t) && Extends(t, u)
    ensures Extends(s, u)
  {
  }

  datatype Resolved = Resolved(descriptor: DelegateType, shared: Shared)

  /** `GetDelegateType`: the delegate type cached under the signature's name,
      synthesised by `MakeDelegate` and cached only when the name is new. */
  function GetDelegateType(s: Shared, parameters: seq<TypeRef>, returnType: TypeRef): (r: Resolved)
    ensures var name := SignatureName(parameters, returnType);
            && name in r.shared.delegateTypesCache
            && r.shared.delegateTypesCache[name] == r.descriptor
            && r.shared.delegateTypesCache.Keys == s.delegateTypesCache.Keys + {name}
            && (name in s.delegateTypesCache ==> r == Resolved(s.delegateTypesCache[name], s))
            && (name !in s.delegateTypesCache ==>
                  && r.shared.typesMade == s.typesMade + 1
                  && r.descriptor.parameters == parameters
                  && r.descriptor.returnType == returnType)
    ensures Extends(s, r.shared)
    ensures r.shared.userFunctions == s.userFunctions
    ensures r.shared.delegatesCache == s.delegatesCache && r.shared.delegatesMade == s.delegatesMade
  {
    var name := SignatureName(parameters, returnType);
    if name in s.delegateTypesCache then
      Resolved(s.delegateTypesCache[name], s)
    else
      var made := MakeDelegate(s.typesMade, parameters, returnType, name);
      Resolved(made, s.(delegateTypesCache := s.delegateTypesCache[name := made], typesMade := s.typesMade + 1))
  }

  /** A lookup keeps the cache invariant and returns the descriptor named
      after the signature. */
  lemma GetDelegateTypeKeepsValid(s: Shared, parameters: seq<TypeRef>, returnType: TypeRef)
    requires Valid(s)
    ensures var r := GetDelegateType(s, parameters, returnType);
            Valid(r.shared) && r.descriptor.name == SignatureName(parameters, returnType)
  {
    var name := SignatureName(parameters, returnType);
    if name !in s.delegateTypesCache {
      var made := MakeDelegate(s.typesMade, parameters, returnType, name);
      AddTypeKeepsValid(s, GetDelegateType(s, parameters, returnType).shared, name, made);
    }
  }

  lemma AddTypeKeepsValid(s: Shared, t: Shared, name: string, made: DelegateType)
    requires name !in s.delegateTypesCache
    requires made.serial == s.typesMade && made.name == name
    requires t == s.(delegateTypesCache := s.delegateTypesCache[name := made], typesMade := s.typesMade + 1)
    ensures Extends(s, t)
    ensures Valid(s) ==> Valid(t)
  {
    if Valid(s) {
      assert t.delegateTypesCache.Keys == s.delegateTypesCache.Keys + {name};
      assert TypesCacheValid(t.delegateTypesCache, t.typesMade);
      forall k | k in t.delegatesCache
        ensures OfCachedType(t.delegateTypesCache, t.delegatesCache[k])
      {
        assert OfCachedType(s.delegateTypesCache, s.delegatesCache[k]);
      }
    }
  }

  /** `MakeDelegate`, with the Reflection.Emit type building left out: a new
      descriptor, told apart from all earlier ones by its call number. */
  function MakeDelegate(serial: nat, parameters: seq<TypeRef>, returnType: TypeRef, name: string): DelegateType
  {
    DelegateType(serial, name, parameters, returnType)
  }

  /** A descriptor returned by a cache miss differs from every descriptor
      cached before the call. */
  lemma SynthesisIsFresh(s: Shared, parameters: seq<TypeRef>, returnType: TypeRef)
    requires Valid(s)
    requires SignatureName(parameters, returnType) !in s.delegateTypesCache
    ensures forall n :: n in s.delegateTypesCache ==>
              s.delegateTypesCache[n] != GetDelegateType(s, parameters, returnType).descriptor
  {
  }

  /** Once a name is cached, every later lookup of any signature with that
      name, from any later state, returns the same descriptor and synthesises
      nothing. */
  lemma DescriptorReused(s: Shared, t: Shared, parameters: seq<TypeRef>, returnType: TypeRef)
    requires Extends(s, t)
    requires SignatureName(parameters, returnType) in s.delegateTypesCache
    ensures GetDelegateType(t, parameters, returnType)
            == Resolved(s.delegateTypesCache[SignatureName(parameters, returnType)], t)
  {
  }

  /** The outcome of `GetFunctionPointer`: the pointer, or `None` when
      `CreateDelegate` threw, and the state the caches are left in. */
  datatype Pointed = Pointed(pointer: Option<IntPtr>, shared: Shared)

  /** `CreateDelegate` is reached for `m` and throws: the method key is new,
      and the runtime refuses to bind `m` to the delegate type `GetDelegateType`
      resolves for its signature, the one cached under its signature name or
      a fresh synthesis. */
  predicate BindFails(rt: Runtime, s: Shared, m: MethodDesc)
  {
    && DelegateKey(m) !in s.delegatesCache
    && !Binds(rt, m, GetDelegateType(s, m.parameters, m.returnType).descriptor)
  }

  /** `GetFunctionPointer`: the pointer of the delegate cached under the
      method's key; on a miss the delegate is created from the delegate type
      of the method's signature and cached. A `CreateDelegate` that throws
      leaves the delegate cache as it was, but the delegate type that
      `GetDelegateType` resolved stays cached. */
  function GetFunctionPointer(rt: Runtime, s: Shared, m: MethodDesc): (r: Pointed)
    ensures r.pointer.None? <==> BindFails(rt, s, m)
    ensures r.pointer.None? ==> r.shared == GetDelegateType(s, m.parameters, m.returnType).shared
    ensures var key := DelegateKey(m);
            r.pointer.Some? ==>
              && key in r.shared.delegatesCache
              && r.pointer.value == rt.pointerOf(r.shared.delegatesCache[key])
              && r.shared.delegatesCache.Keys == s.delegatesCache.Keys + {key}
              && (key in s.delegatesCache ==> r == Pointed(Some(rt.pointerOf(s.delegatesCache[key])), s))
              && (key !in s.delegatesCache ==>
                    && r.shared.delegatesMade == s.delegatesMade + 1
                    && r.shared.delegatesCache[key].target == m)
    ensures r.shared.typesMade <= s.typesMade + 1
    ensures Extends(s, r.shared)
    ensures r.shared.userFunctions == s.userFunctions
  {
    var key := DelegateKey(m);
    if key in s.delegatesCache then
      Pointed(Some(rt.pointerOf(s.delegatesCache[key])), s)
    else
      var resolved := GetDelegateType(s, m.parameters, m.returnType);
      var t := resolved.shared;
      if !Binds(rt, m, resolved.descriptor) then
        Pointed(None, t)
      else
        var d := Delegate(t.delegatesMade, m, resolved.descriptor);
        Pointed(Some(rt.pointerOf(d)), t.(delegatesCache := t.delegatesCache[key := d], delegatesMade := t.delegatesMade + 1))
  }

  /** When `CreateDelegate` is reached: a method that is not `Delegable` is
      always refused; on a new signature name any `Delegable` method binds to
      the fresh synthesis of its own shape; on a cached name the runtime
      decides against the cached type. */
  lemma BindFailsCases(rt: Runtime, s: Shared, m: MethodDesc)
    requires DelegateKey(m) !in s.delegatesCache
    ensures !Delegable(m) ==> BindFails(rt, s, m)
    ensures var name := SignatureName(m.parameters, m.returnType);
            && (name !in s.delegateTypesCache ==> (BindFails(rt, s, m) <==> !Delegable(m)))
            && (name in s.delegateTypesCache ==> (BindFails(rt, s, m) <==> !Binds(rt, m, s.delegateTypesCache[name])))
  {
    var resolved := GetDelegateType(s, m.parameters, m.returnType);
    assert SignatureName(m.parameters, m.returnType) !in s.delegateTypesCache ==> SameShape(m, resolved.descriptor);
  }

  /** A method that is not `Delegable` (one of an open generic type, or one
      the runtime refuses outright) whose key is not cached makes
      `GetFunctionPointer` throw, after `GetDelegateType` has cached a type
      for its signature name: the type cache can grow in a pass that
      throws. */
  lemma RefusedMethodFails(rt: Runtime, s: Shared, m: MethodDesc)
    requires !Delegable(m) && DelegateKey(m) !in s.delegatesCache
    ensures var r := GetFunctionPointer(rt, s, m);
            var name := SignatureName(m.parameters, m.returnType);
            && r.pointer.None?
            && r.shared.delegatesCache == s.delegatesCache
            && name in r.shared.delegateTypesCache
            && (name !in s.delegateTypesCache ==> r.shared.typesMade == s.typesMade + 1)
  {
    BindFailsCases(rt, s, m);
  }

  /** A pointer lookup keeps the cache invariant, whether or not
      `CreateDelegate` throws. */
  lemma GetFunctionPointerKeepsValid(rt: Runtime, s: Shared, m: MethodDesc)
    requires Valid(s)
    ensures Valid(GetFunctionPointer(rt, s, m).shared)
  {
    var key := DelegateKey(m);
    if key !in s.delegatesCache {
      var resolved := GetDelegateType(s, m.parameters, m.returnType);
      GetDelegateTypeKeepsValid(s, m.parameters, m.returnType);
      var t := resolved.shared;
      if Binds(rt, m, resolved.descriptor) {
        var d := Delegate(t.delegatesMade, m, resolved.descriptor);
        AddDelegateKeepsValid(t, GetFunctionPointer(rt, s, m).shared, key, d);
      }
    }
  }

  lemma AddDelegateKeepsValid(t: Shared, u: Shared, key: string, d: Delegate)
    requires key !in t.delegatesCache
    requires d.serial == t.delegatesMade && DelegateKey(d.target) == key
    requires Valid(t) ==> OfCachedType(t.delegateTypesCache, d)
    requires u == t.(delegatesCache := t.delegatesCache[key := d], delegatesMade := t.delegatesMade + 1)
    ensures Extends(t, u)
    ensures Valid(t) ==> Valid(u)
  {
    if Valid(t) {
      AddDelegateKeepsShape(t.delegatesCache, key, d, t.delegatesMade);
      forall k | k in u.delegatesCache
        ensures OfCachedType(u.delegateTypesCache, u.delegatesCache[k])
      {
        if k != key {
          assert OfCachedType(t.delegateTypesCache, t.delegatesCache[k]);
        }
      }
    }
  }

  /** The bookkeeping half of `DelegatesCacheValid`, kept apart so that the
      proof of each half stays small. */
  ghost predicate DelegatesNumbered(delegates: map<string, Delegate>, made: nat)
  {
    && made == |delegates|
    && (forall k :: k in delegates ==> DelegateKey(delegates[k].target) == k && delegates[k].serial < made)
    && (forall k1, k2 :: k1 in delegates && k2 in delegates && k1 != k2 ==> delegates[k1].serial != delegates[k2].serial)
  }

  lemma AddDelegateKeepsShape(delegates: map<string, Delegate>, key: string, d: Delegate, made: nat)
    requires DelegatesNumbered(delegates, made)
    requires key !in delegates && d.serial == made && DelegateKey(d.target) == key
    ensures DelegatesNumbered(delegates[key := d], made + 1)
  {
    assert delegates[key := d].Keys == delegates.Keys + {key};
  }

  /** A second call for a key already cached, from any later state, returns
      the pointer of the same delegate and changes nothing. */
  lemma PointerReused(rt: Runtime, s: Shared, t: Shared, m: MethodDesc)
    requires Extends(s, t)
    requires DelegateKey(m) in s.delegatesCache
    ensures GetFunctionPointer(rt, t, m) == Pointed(Some(rt.pointerOf(s.delegatesCache[DelegateKey(m)])), t)
  {
  }

  /** Two methods whose signatures share a name but not a shape: once the
      first has been bound, the second is handed the first's delegate type,
      and `CreateDelegate` throws for it unless the runtime accepts the
      difference. */
  lemma CollisionFails(rt: Runtime, s: Shared, m1: MethodDesc, m2: MethodDesc)
    requires SignatureName(m1.parameters, m1.returnType) == SignatureName(m2.parameters, m2.returnType)
    requires SignatureName(m1.parameters, m1.returnType) !in s.delegateTypesCache
    requires DelegateKey(m1) !in s.delegatesCache && DelegateKey(m2) !in s.delegatesCache
    requires DelegateKey(m1) != DelegateKey(m2) && Delegable(m1)
    requires !Binds(rt, m2, MakeDelegate(s.typesMade, m1.parameters, m1.returnType, SignatureName(m1.parameters, m1.returnType)))
    ensures var first := GetFunctionPointer(rt, s, m1);
            && first.pointer.Some?
            && GetFunctionPointer(rt, first.shared, m2) == Pointed(None, first.shared)
  {
    var name := SignatureName(m1.parameters, m1.returnType);
    var first := GetFunctionPointer(rt, s, m1);
    BindFailsCases(rt, s, m1);
    assert first.shared.delegateTypesCache[name] == MakeDelegate(s.typesMade, m1.parameters, m1.returnType, name);
  }

  /** `m`'s shape agrees with the delegate type cached under its signature
      name, if there is one. */
  ghost predicate FitsCache(types: map<string, DelegateType>, m: MethodDesc)
  {
    var name := SignatureName(m.parameters, m.returnType);
    name in types ==> SameShape(m, types[name])
  }

  /** `CreateDelegate` cannot refuse a method of `pool`: each is
      `Delegable`, each agrees with the cache, and two of them with the same
      signature name have the same shape. */
  ghost predicate Coherent(types: map<string, DelegateType>, pool: set<MethodDesc>)
  {
    && (forall m :: m in pool ==> Delegable(m))
    && (forall m :: m in pool ==> FitsCache(types, m))
    && (forall m1, m2 :: m1 in pool && m2 in pool
          && SignatureName(m1.parameters, m1.returnType) == SignatureName(m2.parameters, m2.returnType)
          ==> m1.parameters == m2.parameters && m1.returnType == m2.returnType)
  }

  /** A lookup for a method of a coherent pool never throws and keeps the
      pool coherent. */
  lemma CoherentBinds(rt: Runtime, s: Shared, m: MethodDesc, pool: set<MethodDesc>)
    requires Coherent(s.delegateTypesCache, pool) && m in pool
    ensures !BindFails(rt, s, m)
    ensures Coherent(GetFunctionPointer(rt, s, m).shared.delegateTypesCache, pool)
  {
    var name := SignatureName(m.parameters, m.returnType);
    assert FitsCache(s.delegateTypesCache, m);
    if DelegateKey(m) !in s.delegatesCache {
      BindFailsCases(rt, s, m);
    }
    var t := GetFunctionPointer(rt, s, m).shared.delegateTypesCache;
    if DelegateKey(m) !in s.delegatesCache && name !in s.delegateTypesCache {
      assert t == s.delegateTypesCache[name := MakeDelegate(s.typesMade, m.parameters, m.returnType, name)];
      forall m2 | m2 in pool
        ensures FitsCache(t, m2)
      {
        assert FitsCache(s.delegateTypesCache, m2);
      }
    } else {
      assert t == s.delegateTypesCache;
    }
  }

  /** Two cached delegates share one delegate type exactly when their
      targets' signatures have the same name. */
  lemma DescriptorSharing(s: Shared, k1: string, k2: string)
    requires Valid(s)
    requires k1 in s.delegatesCache && k2 in s.delegatesCache
    ensures var d1, d2 := s.delegatesCache[k1], s.delegatesCache[k2];
            d1.delegateType == d2.delegateType
            <==> SignatureName(d1.target.parameters, d1.target.returnType)
                 == SignatureName(d2.target.parameters, d2.target.returnType)
  {
    var d1, d2 := s.delegatesCache[k1], s.delegatesCache[k2];
    assert OfCachedType(s.delegateTypesCache, d1) && OfCachedType(s.delegateTypesCache, d2);
  }

  /** Between two valid states, the number of `MakeDelegate` calls equals
      the number of new signature names, and the number of delegates
      created equals the number of new method keys: no type is synthesised
      twice for one signature name and no two delegates are created for one
      method key. A refused `CreateDelegate` call creates nothing, so a later
      pass calls it again for the same key. */
  lemma CallsMatchNewKeys(s: Shared, t: Shared)
    requires Valid(s) && Valid(t) && Extends(s, t)
    ensures t.typesMade - s.typesMade == |t.delegateTypesCache.Keys - s.delegateTypesCache.Keys|
    ensures t.delegatesMade - s.delegatesMade == |t.delegatesCache.Keys - s.delegatesCache.Keys|
  {
    SubsetCardinality(s.delegateTypesCache.Keys, t.delegateTypesCache.Keys);
    SubsetCardinality(s.delegatesCache.Keys, t.delegatesCache.Keys);
  }

  lemma SubsetCardinality<K>(a: set<K>, b: set<K>)
    requires a <= b
    ensures |b| == |a| + |b - a|
  {
    assert b == a + (b - a);
  }
}
